=== FILE: README.md ===
# Contact manager over MongoDB — a Dafny model

The contact manager keeps address-book records in a MongoDB collection and
has two front ends:

- a text menu (`CLI/contacts.py`) that adds, updates, deletes, exports and
  imports contacts from answers typed at a prompt;
- a Flask JSON API (`CMS/app.py`) with create, get, update, delete, search
  and CSV download endpoints.

The menu always opens `contact_manager.contacts`. The API opens the
database that `DB_NAME` names, `contact_db` by default, so the two share
records only when the API is started with `DB_NAME=contact_manager` (and the
menu's server). Each front end is modelled over its own collection; the
lemmas in `frontends.dfy` are about that shared setting.

This project models the logic that sits between the prompts or HTTP
requests and the database, and proves what it promises. The collection is a
class holding a map from identifier to document plus an identifier counter
(`Store.Collection`); its methods are the five driver calls the front ends
make. A document is a map from field name to a JSON-like value
(`Values.Doc`).

- `text.dfy`: `str.strip`, `split(",")`, `join` and `lower` on ASCII text.
- `values.dfy`: values, documents, truthiness and `dict.get`.
- `ids.dfy`: ObjectId text, both directions.
- `phone.dfy`: `normalize_phone`.
- `tags.dfy`: the menu's tag parsing and `", ".join`.
- `store.dfy`: the collection.
- `cli.dfy`: the menu commands. The console is a sequence of answers, and
  running out of answers is `input()`'s end-of-file error.
- `frontends.dfy`: what one front end does to a record the other wrote.
- `api.dfy`: the HTTP handlers. A Python exception escaping a handler is
  the 500 reply `ServerError`.

Five places where the code does something a reader might not expect of an
address book; the model follows the code:

- The API never digit-normalizes a phone. It only strips it, on create and
  on update. So when both front ends share the collection, a record created
  by the API can change when the menu exports and re-imports it
  (`FrontEnds.CreatedPhoneChangesOnImport`).
- `normalize_phone` keeps every `+`, not only a leading one.
- Tag parsing keeps empty pieces: `"a,,b"` gives three tags.
- In the menu's update, a blank answer can never clear a field. It always
  keeps the stored value.
- The menu shows a record before it updates or deletes it, and showing
  raises on tags that are neither a string nor a list of strings. The menu's
  own import keeps `"tags": null` (`Cli.ImportedNullTagsNotShowable`), and
  so does the API when sent one. Such a record can never be changed or
  removed from the menu (`FrontEnds.NullTagsBlockMenu`, for a shared
  collection).

## Model

| member | source | states |
|---|---|---|
| Text.Strip | CLI/contacts.py:42 | The result has no leading or trailing whitespace, and it is empty exactly when the input is all whitespace |
| Text.StripIdempotent | CLI/contacts.py:42 | Stripping a stripped string changes nothing |
| Text.StripPadded | CLI/contacts.py:76-77 | Whitespace added on either side of a string does not change its strip |
| Text.Split | CLI/contacts.py:77 | `split(",")` gives one more piece than there are commas, and no piece holds a comma |
| Text.JoinSplit | CLI/contacts.py:77 | Joining the pieces with "," gives the text back |
| Text.SplitJoin | CLI/contacts.py:77 | Splitting comma-free pieces joined with "," gives the pieces back |
| Text.Lower | CLI/contacts.py:174 | `lower()` keeps the length and lower-cases each letter in place |
| Ids.IdText | CMS/app.py:25 | `str(_id)` is lower-case hexadecimal of at least 24 digits, and exactly 24 when the identifier fits an ObjectId |
| Ids.ParseId | CMS/app.py:89 | A text names an identifier exactly when it is 24 hexadecimal digits (see Left out for whitespace) |
| Ids.IdTextRoundTrip | CMS/app.py:89 | Parsing the printed identifier gives it back, exactly when it fits an ObjectId |
| Ids.IdTextInjective | CMS/app.py:25 | Distinct identifiers print differently |
| Ids.ParsedIdText | CMS/app.py:89 | An accepted text names the identifier that prints as its lower-case form |
| Phone.NormalizePhone | CLI/contacts.py:50-52 | The output holds only digits and '+' and is no longer than the input |
| Phone.NormalizeConcat | CLI/contacts.py:52 | Normalizing a concatenation is concatenating the normalized parts |
| Phone.NormalizeFixes | CLI/contacts.py:52 | A string is unchanged exactly when it is made only of digits and '+' |
| Phone.NormalizeIdempotent | CLI/contacts.py:52 | Normalizing twice is normalizing once |
| Phone.NormalizeSubsequence | CLI/contacts.py:52 | The output is an order-preserving subsequence of the input |
| Phone.NormalizeKeepsPhoneChars | CLI/contacts.py:52 | Every digit and every '+' of the input is kept, as often as it occurs |
| Phone.NormalizeItems | CLI/contacts.py:211-212 | A list phone normalizes when all its items are strings; it keeps the digit-string and "+" items, concatenated |
| Phone.NormalizeValue | CLI/contacts.py:152 | A string is filtered, a list of strings is filtered item by item, and any other value raises |
| Tags.ParseTags | CLI/contacts.py:76-77 | No tags exactly for a blank answer; otherwise commas + 1 tags, each stripped and comma-free |
| Tags.ParseTagsPieces | CLI/contacts.py:76-77 | The tags are the stripped comma-separated pieces of the answer as typed, in order |
| Tags.ParseJoinedTags | CLI/contacts.py:77 | Tags joined with ", " parse back unchanged when stripped and comma-free, except the single empty tag |
| Tags.ParseTagsBlank | CLI/contacts.py:76-77 | Empty and all-blank answers give no tags |
| Tags.ParseTagsSpaced | CLI/contacts.py:76-77 | "a, b ,c" gives ["a", "b", "c"]: each piece is stripped |
| Tags.ParseDoubledComma | CLI/contacts.py:76-77 | Two comma-free texts around ",," parse as the three pieces, stripped |
| Tags.ParseTagsEmptyPiece | CLI/contacts.py:76-77 | Two stripped, comma-free tags (either may be empty) around ",," give three tags, the middle one empty: empty pieces are kept |
| Store.Collection.InsertOne | CLI/contacts.py:85 | `insert_one` stores the document under a fresh identifier and changes nothing else |
| Store.Collection.FindOne | CLI/contacts.py:137 | `find_one` finds the document exactly when its identifier is stored |
| Store.Collection.UpdateOne | CLI/contacts.py:164 | `update_one` with `$set` merges the patch into the matched document alone and reports whether one matched |
| Store.Collection.DeleteOne | CLI/contacts.py:176 | `delete_one` removes that identifier alone and reports whether it was there |
| Store.Collection.Find | CLI/contacts.py:185 | `find()` lists every stored identifier exactly once |
| Cli.Ask | CLI/contacts.py:40-47 | What `input_nonempty` returns and how many answers it reads: a returned text is the last answer read, stripped and non-empty |
| Cli.AskFinds | CLI/contacts.py:41-46 | Asked until non-blank, the result is the first non-blank answer, stripped, and every answer up to it is read |
| Cli.AskEnds | CLI/contacts.py:41-47 | Asked until non-blank, all-blank answers run out of input |
| Cli.AskGiven | CLI/contacts.py:41-46 | A returned text comes from a non-blank answer after blank ones only |
| Cli.AskOptional | CLI/contacts.py:42-46 | With `optional` only the first answer is read: a blank one is `None`, a non-blank one is returned stripped |
| Cli.InputNonempty | CLI/contacts.py:40-47 | The retry loop returns what `Cli.Ask` says and reads the answers it says |
| Cli.OrNone | CLI/contacts.py:74-75 | `strip() or None` is `None` exactly for a blank answer, else the stripped non-empty text |
| Cli.NewContactFields | CLI/contacts.py:69-84 | The record `Cli.NewContact` builds has the five fields: the name as given, the phone normalized, a blank email or address stored as `None`, and no tags exactly for a blank answer |
| Cli.NewContactIsMenuRecord | CLI/contacts.py:71-84 | Given a non-empty stripped name, the new record has a digit-and-'+' phone, stripped optional fields and stripped comma-free tags |
| Cli.ReadAddAt | CLI/contacts.py:71-72 | When `add_contact` gets its answers, the name and phone are the first two non-blank answers, with only blank ones before each |
| Cli.AddAnswersRead | CLI/contacts.py:71-77 | The answers `add_contact` takes are a non-blank name, a non-blank phone after blank answers only, and the next three answers as typed |
| Cli.AddAnswersComplete | CLI/contacts.py:71-77 | Conversely, such answers always give a record, built from exactly those answers |
| Cli.AddedIsMenuRecord | CLI/contacts.py:71-84 | Every record the menu adds has the shape of a menu record |
| Cli.AddContact | CLI/contacts.py:69-86 | A record is added exactly when the answers hold a name, a phone and three more answers; it is the new record from those answers, under the next identifier, and nothing else changes; otherwise nothing is written |
| Cli.KeepOr | CLI/contacts.py:150-154 | A blank answer keeps the stored value (`None` if missing); any other answer is stored stripped |
| Cli.UpdateFields | CLI/contacts.py:150-163 | The `$set` document sets the five fields, and it exists exactly when the phone in use normalizes without raising |
| Cli.UpdateFieldsValues | CLI/contacts.py:150-163 | A blank answer keeps each stored field; a non-blank one replaces it; the phone is normalized either way |
| Cli.UpdateIdempotent | CLI/contacts.py:150-164 | Giving the same answers to the updated record gives the same `$set` again |
| Cli.BlankUpdateKeepsRecord | CLI/contacts.py:150-164 | All-blank answers leave a record the menu wrote exactly as it was |
| Cli.BlankPhoneIsNormalized | CLI/contacts.py:151-152 | A blank phone answer still normalizes the stored phone |
| Cli.UpdatePlan | CLI/contacts.py:122-164 | Every outcome other than an update leaves the table as it was |
| Cli.UpdateOnlyThatRecord | CLI/contacts.py:122-164 | An update writes the record whose identifier was typed, whose tags could be shown, merged with the `$set` of the five answers after it, and no other record |
| Cli.UpdateOutcomes | CLI/contacts.py:122-164 | Each failure outcome happens exactly under its condition on the typed identifier, the found record and the answers after it, in prompt order: showing the record raises on tags that cannot be joined before any answer is read, and the phone is normalized after two answers, before the other three are read |
| Cli.NullPhoneRaisesEarly | CLI/contacts.py:150-152 | A record with a `None` phone and two blank answers raises before email, address and tags are asked |
| Cli.UpdateContact | CLI/contacts.py:122-164 | The outcome and the new table are those `Cli.UpdatePlan` gives for the answers |
| Cli.DeletePlan | CLI/contacts.py:122-179 | Every outcome other than a deletion leaves the table as it was |
| Cli.DeleteOnlyConfirmed | CLI/contacts.py:122-179 | A record is deleted exactly when the typed identifier names a stored record whose tags can be shown and the next answer, stripped and lower-cased, is "yes"; then that record alone is removed; "Aborted" exactly when that answer is something else |
| Cli.DeleteFailures | CLI/contacts.py:122-179 | "Invalid id", "not found", the raise of `show_contact` on tags that cannot be joined, and end of input each happen exactly under their own condition |
| Cli.DeleteContact | CLI/contacts.py:168-179 | The outcome and the new table are those `Cli.DeletePlan` gives for the answers |
| Cli.ExportDoc | CLI/contacts.py:187-190 | The exported copy is the document with `_id` set to its identifier's text |
| Cli.ExportContacts | CLI/contacts.py:183-193 | One exported copy per stored document, in the cursor's order |
| Cli.ImportDoc | CLI/contacts.py:205-216 | Drops `_id`, skips a document without a truthy name, normalizes a truthy phone (raising unless it is text or a list of text), defaults a missing phone to "" and missing tags to [], and keeps every other field |
| Cli.ImportedNullTagsNotShowable | CLI/contacts.py:205-216 | A named document with `"tags": null` is not skipped, and if inserted it keeps tags the menu cannot show |
| Cli.ImportAll | CLI/contacts.py:204-217 | The inserted documents number at most the named ones, exactly that many when nothing raised, and each has a name, a phone, tags and no `_id` |
| Cli.ImportContacts | CLI/contacts.py:196-218 | The collection gains exactly the cleaned documents, in order, under fresh identifiers, and the count is how many were inserted |
| Cli.ExportImportDoc | CLI/contacts.py:187-215 | Exporting and re-importing gives the same document back exactly when it survives the import's clean-up |
| Cli.ExportImportAll | CLI/contacts.py:183-218 | Export then import re-creates every document, in order, when each survives the clean-up |
| Cli.NewContactSurvives | CLI/contacts.py:78-84 | Every record `add_contact` writes survives export and import |
| Api.DocToJson | CMS/app.py:23-32 | Exactly the six keys: `_id` as text, and each field's value or its default, "" or [] |
| Api.DocToJsonId | CMS/app.py:25 | The `_id` of a reply parses back as the identifier |
| Api.DocToJsonEchoes | CMS/app.py:23-32 | A document holding the five fields is echoed unchanged, with its `_id` added |
| Api.StripField | CMS/app.py:49-51 | `get(k, "").strip()` is "" for a missing field, the stripped text for a string, and raises otherwise |
| Api.NewRecord | CMS/app.py:42-53 | "Name required" exactly when the name is missing or blank; raises on a field without `strip()`; otherwise the five fields: the name stripped and non-empty, phone, email and address each the text sent stripped or "" when missing, tags as sent |
| Api.CreateContact | CMS/app.py:42-56 | Inserts the record under a fresh identifier and replies 201 with it; 400 or 500 insert nothing |
| Api.CreatedReplyEchoes | CMS/app.py:55-56 | The 201 body is the stored record plus its `_id` |
| Api.PatchOf | CMS/app.py:99-115 | The patch holds exactly the contact fields the body sends, text fields stripped; a blank name is rejected first; a body without contact fields is "Nothing to update"; which bodies raise |
| Api.BuildPatch | CMS/app.py:99-115 | The guarded assignments with early returns compute that patch |
| Api.ApplyPatch | CMS/app.py:117-124 | The identifier is parsed before lookup: invalid is 400, unknown is 404, and otherwise the patch is merged into that record alone |
| Api.UpdateOutcome | CMS/app.py:97-124 | Body errors win over identifier errors, and nothing is written unless the updated contact is returned |
| Api.UpdateContact | CMS/app.py:97-124 | The reply and the new collection are those of the update outcome |
| Api.UpdateOnlyPatched | CMS/app.py:117-124 | For a valid patch and a stored identifier, the update writes the sent fields, keeps every other field of that record, and leaves every other record alone |
| Api.ApplyPatchIdempotent | CMS/app.py:118 | Applying the same patch twice is applying it once |
| Api.UpdateIdempotent | CMS/app.py:97-124 | After a successful update, sending the same body again gives the same reply and changes nothing |
| Api.GetContact | CMS/app.py:86-94 | 400 for an invalid identifier, 404 for an unknown one, and otherwise the record as JSON |
| Api.DeleteContact | CMS/app.py:128-136 | 400 and 404 change nothing; otherwise exactly that record is removed |
| Api.SearchPattern | CMS/app.py:69-71 | A missing or blank query gives no pattern; otherwise the stripped, non-empty query |
| Api.SearchContacts | CMS/app.py:67-83 | A blank query is the empty list; a pattern the database refuses is a 500; otherwise every matching record once, as JSON |
| Tags.TagsCell | CMS/app.py:154 | `", ".join` of a string list joins it, of a string spells it out, and raises for anything else |
| Api.CsvRow | CMS/app.py:148-155 | Six cells, the first the identifier's text and the last the joined tags; none when joining raises |
| Api.DownloadCsv | CMS/app.py:141-155 | A 500 exactly when some row raises; otherwise the header and then one row per record |
| Api.CsvTagsReadBack | CMS/app.py:154 | The tags cell parses back into the stored tags through the menu's tag parser |
| Api.CsvTagsOfString | CMS/app.py:154 | Tags sent as the string "ab" come out as the cell "a, b" |
| FrontEnds.NullTagsBlockMenu | CLI/contacts.py:55-64 | In a collection both front ends use, a record created through the API with `"tags": null` survives every menu delete and update unchanged, because showing it raises |
| FrontEnds.CreatedPhoneChangesOnImport | CMS/app.py:49 | In a collection both front ends use, a phone created as "(5)" is stored as sent, and that record does not survive the menu's export and import |

## Left out

- The MongoDB connection, the ping and `sys.exit` on failure: the collection is an in-memory map.
- `MONGO_URI`, `DB_NAME` and the collection names: each front end works on one `Store.Collection`. They share records only when the API's `DB_NAME` is `contact_manager` and both use the same server, and only the `FrontEnds` lemmas assume that.
- Regular-expression matching in `search_contacts`: the database's match is the parameter `matches` of `Api.SearchContacts`, and the patterns it accepts the parameter `valid`.
- `sort("name", 1)`: the cursor's order is any order that lists each record once.
- ObjectId generation: fresh identifiers come from a counter. `ObjectId` built from 12 bytes is not modelled, only the 24-digit text form.
- The menu's fallback lookup by a raw string `_id`: every stored identifier is an ObjectId, so that lookup finds nothing and the model answers "invalid id".
- Flask routing, `jsonify`, CORS, `render_template`, `send_file` and the 415 reply for a non-JSON body: a request body is a document, a path identifier a string.
- `csv.writer` quoting and the `str()` of each cell: a row is the list of cell values handed to the writer.
- JSON file reading and writing, and a file whose items are not objects: export returns the documents and import takes them.
- Nested JSON objects inside a document and floating-point numbers: a value is null, a boolean, an integer, a string or a list.
- The 8-byte range of BSON integers: a value's integer is unbounded, so the driver's `OverflowError` on a larger one is not modelled. `Api.CreateContact` answers 201 where the program answers 500. `Api.ApplyPatch` answers 200 where the `try` around `update_one` answers 400 "Invalid id". `Cli.ImportContacts` inserts a document where the import raises.
- The menu loop, every `print`, `show_contact` apart from the `", ".join` of the tags (whose raise is `Cli.Showable`), `list_contacts`, `find_contacts_by_text` and `get_contacts`: output only, or sorting and regex search as above.
- Unicode in `strip`, `isdigit` and `lower`: whitespace is ASCII 9–13 and 28–32, digits are '0'–'9', and only 'A'–'Z' are lower-cased.
- Ids.ParseId: rejects every text with whitespace in it. `ObjectId` decodes with `bytes.fromhex`, which skips whitespace between digit pairs, so some 24-character texts with spaces are accepted there and rejected here.
- Api.SearchContacts: says the records returned are those `matches` selects, without stating what a case-insensitive regex selects; which patterns the database refuses is the parameter `valid`.
- Api.CsvRow: states the first and last cells of each row; the middle four are the field values as `dict.get` returns them.

=== FILE: api.dfy ===
/**
 * The HTTP front end (CMS/app.py). A request body is the JSON object the
 * client sent, as a document; a path identifier is the text of the URL
 * segment. A Python exception escaping a handler (calling `strip()` on a
 * value that is not a string, joining tags that are not strings) is Flask's
 * 500 reply, `ServerError`.
 */
module Api {
  import opened Text
  import opened Values
  import opened Ids
  import opened Tags
  import opened Store

  /** What a handler sends back. */
  datatype Reply =
    | Contact(status: nat, body: Doc)      // `jsonify(doc_to_json(...))`
    | Contacts(bodies: seq<Doc>)           // a JSON list of contacts, 200
    | Message(text: string)                // `{"message": ...}`, 200
    | Error(status: nat, error: string)    // `{"error": ...}`
    | ServerError                          // an exception escaped: 500
    | CsvFile(rows: seq<seq<Value>>)       // the rows handed to `csv.writer`

  /** The outcome of checking a request body before the database is used. */
  datatype Checked = Ok(doc: Doc) | Rejected(error: string) | Raises

  /** `doc_to_json(d)` for the document stored under `id`: exactly the six
      keys, the identifier as text, and `""` or `[]` for a missing field. */
  function DocToJson(id: Id, d: Doc): (j: Doc)
    ensures j.Keys == Fields + {IdKey}
    ensures j[IdKey] == Str(IdText(id))
    ensures forall k :: k in Fields ==> j[k] == Get(d, k, if k == "tags" then List([]) else Str(""))
  {
    map[IdKey := Str(IdText(id)),
        "name" := Get(d, "name", Str("")), "phone" := Get(d, "phone", Str("")),
        "email" := Get(d, "email", Str("")), "address" := Get(d, "address", Str("")),
        "tags" := Get(d, "tags", List([]))]
  }

  /** The identifier text of a reply reads back as the identifier, for every
      identifier that fits an ObjectId. */
  lemma DocToJsonId(id: Id, d: Doc)
    requires id < IdLimit
    ensures ParseId(DocToJson(id, d)[IdKey].s) == Some(id)
  {
    IdTextRoundTrip(id);
  }

  /** A document holding the five fields and no `_id` is echoed unchanged,
      with its identifier added. */
  lemma DocToJsonEchoes(id: Id, d: Doc)
    requires d.Keys == Fields
    ensures DocToJson(id, d) == d[IdKey := Str(IdText(id))]
  {
    var j, e := DocToJson(id, d), d[IdKey := Str(IdText(id))];
    assert j.Keys == e.Keys;
    forall k | k in j ensures j[k] == e[k] {
      if k != IdKey {
        assert k in Fields;
      }
    }
  }

  /** The field is missing, or holds a string. */
  predicate StrOrAbsent(body: Doc, k: string) {
    k !in body || body[k].Str?
  }

  /** `data.get(k, "").strip()`: the stripped string, `""` for a missing
      field, and nothing when the field holds something without `strip()`. */
  function StripField(body: Doc, k: string): (r: Option<string>)
    ensures r.Some? <==> StrOrAbsent(body, k)
    ensures r.Some? ==> IsStripped(r.value)
    ensures r.Some? ==> (r.value == "" <==> k !in body || AllSpace(body[k].s))
    ensures k !in body ==> r == Some("")
    ensures k in body && body[k].Str? ==> r == Some(Strip(body[k].s))
  {
    if k !in body then Some("")
    else if body[k].Str? then Some(Strip(body[k].s))
    else None
  }

  /** What `create_contact` stores: a stripped non-empty name, stripped phone,
      email and address that default to "", and the tags as sent (default
      `[]`). A missing or blank name is "Name required" before the other
      fields are read. */
  function NewRecord(body: Doc): (r: Checked)
    ensures r.Rejected? <==> StrOrAbsent(body, "name") && ("name" !in body || AllSpace(body["name"].s))
    ensures r.Rejected? ==> r.error == "Name required"
    ensures r.Raises? <==>
      || !StrOrAbsent(body, "name")
      || (!r.Rejected? &&
           !(StrOrAbsent(body, "phone") && StrOrAbsent(body, "email") && StrOrAbsent(body, "address")))
    ensures r.Ok? ==>
      && r.doc.Keys == Fields
      && r.doc["name"] == Str(Strip(body["name"].s)) && r.doc["name"].s != ""
      && (forall k :: k in r.doc && k != "tags" ==> r.doc[k].Str? && IsStripped(r.doc[k].s))
      && r.doc["tags"] == Get(body, "tags", List([]))
      && r.doc["phone"] == Str(if "phone" in body then Strip(body["phone"].s) else "")
      && r.doc["email"] == Str(if "email" in body then Strip(body["email"].s) else "")
      && r.doc["address"] == Str(if "address" in body then Strip(body["address"].s) else "")
  {
    var name := StripField(body, "name");
    if name.None? then Raises
    else if name.value == "" then Rejected("Name required")
    else
      var phone, email, address :=
        StripField(body, "phone"), StripField(body, "email"), StripField(body, "address");
      if phone.None? || email.None? || address.None? then Raises
      else
        Ok(map["name" := Str(name.value), "phone" := Str(phone.value),
               "email" := Str(email.value), "address" := Str(address.value),
               "tags" := Get(body, "tags", List([]))])
  }

  /** `POST /api/contacts`. */
  method CreateContact(col: Collection, body: Doc) returns (reply: Reply)
    requires col.Valid()
    modifies col
    ensures col.Valid()
    ensures !NewRecord(body).Ok? ==> col.docs == old(col.docs) && col.nextId == old(col.nextId)
    ensures NewRecord(body).Raises? ==> reply == ServerError
    ensures NewRecord(body).Rejected? ==> reply == Error(400, "Name required")
    ensures NewRecord(body).Ok? ==>
      var id := old(col.nextId);
      && id !in old(col.docs) && col.nextId == old(col.nextId) + 1
      && col.docs == old(col.docs)[id := NewRecord(body).doc]
      && reply == Contact(201, DocToJson(id, NewRecord(body).doc))
  {
    var r := NewRecord(body);
    match r
    case Raises =>
      return ServerError;
    case Rejected(e) =>
      return Error(400, e);
    case Ok(d) =>
      var id := col.InsertOne(d);
      return Contact(201, DocToJson(id, d));
  }

  /** The reply to a creation echoes the stored record with its identifier. */
  lemma CreatedReplyEchoes(id: Id, body: Doc)
    requires NewRecord(body).Ok?
    ensures DocToJson(id, NewRecord(body).doc) == NewRecord(body).doc[IdKey := Str(IdText(id))]
  {
    DocToJsonEchoes(id, NewRecord(body).doc);
  }

  /** The `$set` document `update_contact` builds: exactly the contact fields
      present in the body, the name, phone, email and address stripped and
      the tags as sent. A present blank name is rejected first; a body with
      no contact field is "Nothing to update". */
  function PatchOf(body: Doc): (r: Checked)
    ensures r.Raises? <==>
      || !StrOrAbsent(body, "name")
      || (!("name" in body && AllSpace(body["name"].s)) &&
           !(StrOrAbsent(body, "phone") && StrOrAbsent(body, "email") && StrOrAbsent(body, "address")))
    ensures r == Rejected("Name cannot be empty") <==> "name" in body && body["name"].Str? && AllSpace(body["name"].s)
    ensures r == Rejected("Nothing to update") <==> body.Keys * Fields == {}
    ensures r.Rejected? ==> r.error in {"Name cannot be empty", "Nothing to update"}
    ensures r.Ok? ==> r.doc.Keys == body.Keys * Fields && r.doc != map[]
    ensures r.Ok? ==> forall k :: k in r.doc ==> r.doc[k] == PatchValue(body, k)
    ensures r.Ok? && "name" in r.doc ==> r.doc["name"].Str? && r.doc["name"].s != ""
  {
    if !StrOrAbsent(body, "name") then
      assert "name" in body.Keys * Fields;
      Raises
    else if "name" in body && Strip(body["name"].s) == "" then Rejected("Name cannot be empty")
    else if !(StrOrAbsent(body, "phone") && StrOrAbsent(body, "email") && StrOrAbsent(body, "address")) then
      assert "phone" in body.Keys * Fields || "email" in body.Keys * Fields || "address" in body.Keys * Fields;
      Raises
    else if body.Keys * Fields == {} then Rejected("Nothing to update")
    else
      var patch := map k | k in body.Keys * Fields :: PatchValue(body, k);
      assert exists k :: k in patch;
      Ok(patch)
  }

  /** The value the patch holds for a field the body sends. */
  function PatchValue(body: Doc, k: string): Value
    requires k in body
  {
    if k != "tags" && body[k].Str? then Str(Strip(body[k].s)) else body[k]
  }

  /** `update_contact`'s guarded assignments with early returns, building the
      `update` dictionary one field at a time. */
  method BuildPatch(body: Doc) returns (r: Checked)
    ensures r == PatchOf(body)
  {
    var update: Doc := map[];
    if "name" in body {
      var name := StripField(body, "name");
      if name.None? {
        return Raises;
      }
      if name.value == "" {
        return Rejected("Name cannot be empty");
      }
      update := update["name" := Str(name.value)];
    }
    assert Built(body, update, {"name"});
    if "phone" in body {
      var phone := StripField(body, "phone");
      if phone.None? {
        PatchRaises(body, "phone");
        return Raises;
      }
      update := update["phone" := Str(phone.value)];
    }
    assert Built(body, update, {"name", "phone"});
    if "email" in body {
      var email := StripField(body, "email");
      if email.None? {
        PatchRaises(body, "email");
        return Raises;
      }
      update := update["email" := Str(email.value)];
    }
    assert Built(body, update, {"name", "phone", "email"});
    if "address" in body {
      var address := StripField(body, "address");
      if address.None? {
        PatchRaises(body, "address");
        return Raises;
      }
      update := update["address" := Str(address.value)];
    }
    assert Built(body, update, {"name", "phone", "email", "address"});
    if "tags" in body {
      update := update["tags" := body["tags"]];
    }
    assert Built(body, update, Fields);
    PatchBuilt(body, update);
    if update == map[] {
      return Rejected("Nothing to update");
    }
    return Ok(update);
  }

  /** `update` holds the patch values of the fields `ks` the body sends, and
      those fields did not raise. */
  ghost predicate Built(body: Doc, update: Doc, ks: set<string>) {
    && update.Keys == body.Keys * ks
    && (forall k :: k in update ==> update[k] == PatchValue(body, k))
    && (forall k :: k in ks && k != "tags" ==> StrOrAbsent(body, k))
    && ("name" in body ==> body["name"].Str? && !AllSpace(body["name"].s))
  }

  /** A sent phone, email or address without `strip()` raises once the name
      has passed. */
  lemma PatchRaises(body: Doc, k: string)
    requires k in {"phone", "email", "address"} && !StrOrAbsent(body, k)
    requires StrOrAbsent(body, "name") && ("name" in body ==> !AllSpace(body["name"].s))
    ensures PatchOf(body) == Raises
  {
  }

  /** The dictionary built field by field is the patch. */
  lemma PatchBuilt(body: Doc, update: Doc)
    requires Built(body, update, Fields)
    ensures PatchOf(body) == if update == map[] then Rejected("Nothing to update") else Ok(update)
  {
  }

  /** The reply and the new table of `PUT /api/contacts/<id>` once the body
      gave the patch: the identifier is parsed before the table is looked
      at, and only a stored record is written. */
  function ApplyPatch(t: map<Id, Doc>, idText: string, patch: Doc): (out: (Reply, map<Id, Doc>))
    ensures ParseId(idText).None? ==> out == (Error(400, "Invalid id"), t)
    ensures ParseId(idText).Some? && ParseId(idText).value !in t ==> out == (Error(404, "Not found"), t)
    ensures ParseId(idText).Some? && ParseId(idText).value in t ==>
      var id := ParseId(idText).value;
      && out.1 == t[id := t[id] + patch]
      && out.0 == Contact(200, DocToJson(id, t[id] + patch))
  {
    match ParseId(idText)
    case None => (Error(400, "Invalid id"), t)
    case Some(id) =>
      if id !in t then (Error(404, "Not found"), t)
      else
        var t' := t[id := t[id] + patch];
        (Contact(200, DocToJson(id, t'[id])), t')
  }

  /** The reply and the new table of `PUT /api/contacts/<id>`: the body is
      checked before the identifier is parsed, so a body error wins over a
      bad or unknown identifier, and nothing is written unless the reply is
      the updated contact. */
  function UpdateOutcome(t: map<Id, Doc>, idText: string, body: Doc): (out: (Reply, map<Id, Doc>))
    ensures !out.0.Contact? ==> out.1 == t
    ensures PatchOf(body).Raises? ==> out.0 == ServerError
    ensures PatchOf(body).Rejected? ==> out.0 == Error(400, PatchOf(body).error)
    ensures PatchOf(body).Ok? ==> out == ApplyPatch(t, idText, PatchOf(body).doc)
  {
    match PatchOf(body)
    case Raises => (ServerError, t)
    case Rejected(e) => (Error(400, e), t)
    case Ok(patch) => ApplyPatch(t, idText, patch)
  }

  /** `PUT /api/contacts/<id>`. */
  method UpdateContact(col: Collection, idText: string, body: Doc) returns (reply: Reply)
    requires col.Valid()
    modifies col
    ensures col.Valid() && col.nextId == old(col.nextId)
    ensures (reply, col.docs) == UpdateOutcome(old(col.docs), idText, body)
  {
    var patch := BuildPatch(body);
    if patch.Raises? {
      return ServerError;
    }
    if patch.Rejected? {
      return Error(400, patch.error);
    }
    var id := ParseId(idText);
    if id.None? {
      return Error(400, "Invalid id");
    }
    var matched := col.UpdateOne(id.value, patch.doc);
    if !matched {
      return Error(404, "Not found");
    }
    var doc := col.FindOne(id.value);
    return Contact(200, DocToJson(id.value, doc.value));
  }

  /** A successful update writes the fields the body sends, keeps every other
      field of that record, and leaves every other record alone. */
  lemma UpdateOnlyPatched(t: map<Id, Doc>, idText: string, body: Doc)
    requires PatchOf(body).Ok? && ParseId(idText).Some? && ParseId(idText).value in t
    ensures var id, t' := ParseId(idText).value, UpdateOutcome(t, idText, body).1;
      && t'.Keys == t.Keys
      && (forall j :: j in t && j != id ==> t'[j] == t[j])
      && (forall k :: k in body && k in Fields ==> k in t'[id] && t'[id][k] == PatchValue(body, k))
      && (forall k :: !(k in body && k in Fields) ==>
            (k in t'[id] <==> k in t[id]) && (k in t[id] ==> t'[id][k] == t[id][k]))
  {
  }

  /** Applying the same patch twice is applying it once. */
  lemma ApplyPatchIdempotent(t: map<Id, Doc>, idText: string, patch: Doc)
    requires ApplyPatch(t, idText, patch).0.Contact?
    ensures var out := ApplyPatch(t, idText, patch);
      ApplyPatch(out.1, idText, patch) == out
  {
    var id := ParseId(idText).value;
    var d := t[id] + patch;
    var t' := t[id := d];
    assert d + patch == d;
    assert t'[id := t'[id] + patch] == t';
  }

  /** Sending the same body again changes nothing more. */
  lemma UpdateIdempotent(t: map<Id, Doc>, idText: string, body: Doc)
    requires PatchOf(body).Ok? && ParseId(idText).Some? && ParseId(idText).value in t
    ensures var t' := UpdateOutcome(t, idText, body).1;
      UpdateOutcome(t', idText, body) == (UpdateOutcome(t, idText, body).0, t')
  {
    var patch := PatchOf(body).doc;
    ApplyPatchIdempotent(t, idText, patch);
  }

  /** `GET /api/contacts/<id>`. */
  method GetContact(col: Collection, idText: string) returns (reply: Reply)
    ensures ParseId(idText).None? ==> reply == Error(400, "Invalid id")
    ensures ParseId(idText).Some? && ParseId(idText).value !in col.docs ==> reply == Error(404, "Not found")
    ensures ParseId(idText).Some? && ParseId(idText).value in col.docs ==>
      reply == Contact(200, DocToJson(ParseId(idText).value, col.docs[ParseId(idText).value]))
  {
    var id := ParseId(idText);
    if id.None? {
      return Error(400, "Invalid id");
    }
    var doc := col.FindOne(id.value);
    if doc.None? {
      return Error(404, "Not found");
    }
    return Contact(200, DocToJson(id.value, doc.value));
  }

  /** `DELETE /api/contacts/<id>`. */
  method DeleteContact(col: Collection, idText: string) returns (reply: Reply)
    requires col.Valid()
    modifies col
    ensures col.Valid() && col.nextId == old(col.nextId)
    ensures ParseId(idText).None? ==> reply == Error(400, "Invalid id") && col.docs == old(col.docs)
    ensures ParseId(idText).Some? && ParseId(idText).value !in old(col.docs) ==>
      reply == Error(404, "Not found") && col.docs == old(col.docs)
    ensures ParseId(idText).Some? && ParseId(idText).value in old(col.docs) ==>
      reply == Message("Deleted") && col.docs == old(col.docs) - {ParseId(idText).value}
  {
    var id := ParseId(idText);
    if id.None? {
      return Error(400, "Invalid id");
    }
    var deleted := col.DeleteOne(id.value);
    if !deleted {
      return Error(404, "Not found");
    }
    return Message("Deleted");
  }

  /** The fields `search_contacts` matches against, in its order. */
  const SearchFields: seq<string> := ["name", "phone", "email", "tags", "address"]

  /** `(request.args.get("q") or "").strip()`: the pattern to search for,
      none for a missing or blank query. */
  function SearchPattern(q: Option<string>): (p: Option<string>)
    ensures p.None? <==> q.None? || AllSpace(q.value)
    ensures p.Some? ==> p.value != "" && IsStripped(p.value) && p.value == Strip(q.value)
  {
    if q.None? || Strip(q.value) == "" then None else Some(Strip(q.value))
  }

  /** The `$or` filter: some searched field is present and matches the
      pattern, by the database's own matching. */
  predicate Hit(d: Doc, p: string, matches: (Value, string) -> bool) {
    exists i :: 0 <= i < |SearchFields| && SearchFields[i] in d && matches(d[SearchFields[i]], p)
  }

  /** Identifiers of the documents the filter selects. */
  function Hits(t: map<Id, Doc>, p: string, matches: (Value, string) -> bool): set<Id> {
    set id | id in t && Hit(t[id], p, matches)
  }

  function JsonAll(ids: seq<Id>, t: map<Id, Doc>): (js: seq<Doc>)
    requires forall i :: 0 <= i < |ids| ==> ids[i] in t
    ensures |js| == |ids|
    ensures forall i :: 0 <= i < |ids| ==> js[i] == DocToJson(ids[i], t[ids[i]])
  {
    seq(|ids|, i requires 0 <= i < |ids| => DocToJson(ids[i], t[ids[i]]))
  }

  /** `GET /api/contacts/search?q=...`: a blank query answers the empty list
      without asking the database; a pattern the database refuses as a
      regular expression (`valid` says which it takes) raises; otherwise
      every matching document once, in the cursor's order. */
  method SearchContacts(col: Collection, q: Option<string>,
                        valid: string -> bool, matches: (Value, string) -> bool)
    returns (reply: Reply)
    ensures SearchPattern(q).None? ==> reply == Contacts([])
    ensures SearchPattern(q).Some? && !valid(SearchPattern(q).value) ==> reply == ServerError
    ensures SearchPattern(q).Some? && valid(SearchPattern(q).value) ==>
      exists ids :: Enumerates(ids, Hits(col.docs, SearchPattern(q).value, matches))
        && reply == Contacts(JsonAll(ids, col.docs))
  {
    var p := SearchPattern(q);
    if p.None? {
      return Contacts([]);
    }
    if !valid(p.value) {
      return ServerError;
    }
    var hits := Hits(col.docs, p.value, matches);
    var ids := col.Find();
    var sel: seq<Id> := [];
    var bodies: seq<Doc> := [];
    for i := 0 to |ids|
      invariant Distinct(sel)
      invariant forall j :: 0 <= j < |sel| ==> sel[j] in hits && sel[j] in ids[..i]
      invariant forall id :: id in hits && id in ids[..i] ==> id in sel
      invariant bodies == JsonAll(sel, col.docs)
    {
      assert ids[..i + 1] == ids[..i] + [ids[i]];
      var id := ids[i];
      if Hit(col.docs[id], p.value, matches) {
        assert id !in ids[..i];
        sel := sel + [id];
        bodies := bodies + [DocToJson(id, col.docs[id])];
      }
    }
    assert ids[..|ids|] == ids;
    assert Enumerates(sel, hits);
    return Contacts(bodies);
  }

  /** The header row of `download_csv`. */
  const Header: seq<Value> := [Str("_id"), Str("name"), Str("phone"), Str("email"), Str("address"), Str("tags")]

  /** One row of `download_csv`: the identifier as text, the four text fields
      with "" for a missing one, and the joined tags (none when joining
      raises). */
  function CsvRow(id: Id, d: Doc): (row: Option<seq<Value>>)
    ensures row.Some? <==> TagsCell(Get(d, "tags", List([]))).Some?
    ensures row.Some? ==> |row.value| == |Header| == 6
    ensures row.Some? ==> row.value[0] == Str(IdText(id))
    ensures row.Some? ==> row.value[5] == Str(TagsCell(Get(d, "tags", List([]))).value)
  {
    var tags := TagsCell(Get(d, "tags", List([])));
    if tags.None? then None
    else
      Some([Str(IdText(id)), Get(d, "name", Str("")), Get(d, "phone", Str("")),
            Get(d, "email", Str("")), Get(d, "address", Str("")), Str(tags.value)])
  }

  /** Whether any stored document makes its row raise. */
  predicate AnyRowRaises(t: map<Id, Doc>) {
    exists id :: id in t && CsvRow(id, t[id]).None?
  }

  /** `GET /api/contacts/download_csv`: the header, then one row per
      document in the cursor's order; a row that raises turns the whole
      download into a 500. */
  method DownloadCsv(col: Collection) returns (reply: Reply)
    ensures reply == ServerError <==> AnyRowRaises(col.docs)
    ensures reply != ServerError ==>
      && reply.CsvFile? && |reply.rows| > 0 && reply.rows[0] == Header
      && exists ids :: (Enumerates(ids, col.docs.Keys) && |reply.rows| == |ids| + 1
           && forall i :: 0 <= i < |ids| ==> reply.rows[i + 1] == CsvRow(ids[i], col.docs[ids[i]]).value)
  {
    var ids := col.Find();
    var rows := [Header];
    for i := 0 to |ids|
      invariant |rows| == i + 1 && rows[0] == Header
      invariant forall j :: 0 <= j < i ==> CsvRow(ids[j], col.docs[ids[j]]).Some?
      invariant forall j :: 0 <= j < i ==> rows[j + 1] == CsvRow(ids[j], col.docs[ids[j]]).value
    {
      var row := CsvRow(ids[i], col.docs[ids[i]]);
      if row.None? {
        return ServerError;
      }
      rows := rows + [row.value];
    }
    assert !AnyRowRaises(col.docs) by {
      forall id | id in col.docs ensures CsvRow(id, col.docs[id]).Some? {
        var j :| 0 <= j < |ids| && ids[j] == id;
      }
    }
    return CsvFile(rows);
  }

  /** Tags joined into the CSV cell read back as the same tags through the
      menu's tag parser, when each tag is stripped and comma-free and the
      list is not the single empty tag. */
  lemma CsvTagsReadBack(tags: seq<string>)
    requires forall k :: 0 <= k < |tags| ==> IsStripped(tags[k]) && NoComma(tags[k])
    requires tags != [""]
    ensures TagsCell(StrList(tags)).Some?
    ensures ParseTags(TagsCell(StrList(tags)).value) == tags
  {
    assert Strs(StrList(tags).items) == tags;
    ParseJoinedTags(tags);
  }

  /** Tags sent as one string instead of a list are stored as sent, and the
      CSV spells that string out letter by letter. */
  lemma CsvTagsOfString()
    ensures TagsCell(Str("ab")) == Some("a, b")
  {
    var cs := Chars("ab");
    assert cs == ["a", "b"] && cs[1..] == ["b"];
    assert Join(cs[1..], ", ") == "b";
    assert JoinTags(cs) == "a" + ", " + "b";
    assert "a" + ", " + "b" == "a, b";
  }
}

=== FILE: cli.dfy ===
/**
 * The menu front end (CLI/contacts.py). The console is a sequence of answers
 * the user types, one per `input()` call; running out of answers is the
 * end-of-file error `input()` raises. Printing is not modelled.
 */
module Cli {
  import opened Text
  import opened Values
  import opened Ids
  import opened Phone
  import opened Tags
  import opened Store

  /** What `input_nonempty` returns, or the end of the answers. */
  datatype Answer = Given(text: string) | Skipped | EndOfInput

  /** How a menu command ended. */
  datatype Outcome =
    | Added(id: Id)
    | Updated(id: Id)
    | Deleted(id: Id)
    | Aborted        // the deletion was not confirmed
    | InvalidId      // the identifier is not 24 hexadecimal digits
    | NotFound       // no document has that identifier
    | NoMoreInput    // `input()` reached the end of its input
    | Crashed        // an exception escaped before the database was written

  /** `input_nonempty(prompt, optional)` on the answers still to be typed:
      what it returns and how many answers it reads. It reads until the
      stripped answer is non-empty; with `optional` the first answer decides,
      and a blank one is `None`. */
  function Ask(answers: seq<string>, optional: bool): (r: (Answer, nat))
    ensures r.1 <= |answers|
    ensures r.0.Given? ==> 0 < r.1 && r.0.text == Strip(answers[r.1 - 1]) && r.0.text != ""
  {
    if answers == [] then (EndOfInput, 0)
    else
      var val := Strip(answers[0]);
      if val == "" && optional then (Skipped, 1)
      else if val != "" then (Given(val), 1)
      else
        var rest := Ask(answers[1..], optional);
        (rest.0, rest.1 + 1)
  }

  /** Asked until non-blank, the answer is the first non-blank one, stripped,
      and every answer before it is read too. */
  lemma {:induction false} AskFinds(answers: seq<string>, i: nat)
    requires i < |answers| && !AllSpace(answers[i])
    requires forall k :: 0 <= k < i ==> AllSpace(answers[k])
    ensures Ask(answers, false) == (Given(Strip(answers[i])), i + 1)
  {
    if i > 0 {
      assert AllSpace(answers[0]);
      AskFinds(answers[1..], i - 1);
    }
  }

  /** Asked until non-blank, answers that are all blank run out. */
  lemma {:induction false} AskEnds(answers: seq<string>)
    requires forall k :: 0 <= k < |answers| ==> AllSpace(answers[k])
    ensures Ask(answers, false) == (EndOfInput, |answers|)
  {
    if answers != [] {
      assert AllSpace(answers[0]);
      AskEnds(answers[1..]);
    }
  }

  /** A non-blank answer asked until non-blank comes after blank ones only. */
  lemma {:induction false} AskGiven(answers: seq<string>)
    requires Ask(answers, false).0.Given?
    ensures var used := Ask(answers, false).1;
      !AllSpace(answers[used - 1]) && forall k :: 0 <= k < used - 1 ==> AllSpace(answers[k])
  {
    if AllSpace(answers[0]) {
      AskGiven(answers[1..]);
      var used := Ask(answers, false).1;
      forall k | 0 <= k < used - 1 ensures AllSpace(answers[k]) {
        if k > 0 {
          assert answers[k] == answers[1..][k - 1];
        }
      }
    }
  }

  /** With `optional` only the first answer is read: a blank one is `None`. */
  lemma AskOptional(answers: seq<string>)
    ensures var r := Ask(answers, true);
      && (answers == [] ==> r == (EndOfInput, 0))
      && (answers != [] && AllSpace(answers[0]) ==> r == (Skipped, 1))
      && (answers != [] && !AllSpace(answers[0]) ==> r == (Given(Strip(answers[0])), 1))
  {
  }

  /** The retry loop of `input_nonempty`. */
  method InputNonempty(answers: seq<string>, optional: bool) returns (r: Answer, used: nat)
    ensures (r, used) == Ask(answers, optional)
  {
    used := 0;
    r := EndOfInput;
    while used < |answers|
      invariant used <= |answers|
      invariant optional ==> used == 0
      invariant Ask(answers, optional) == (Ask(answers[used..], optional).0, Ask(answers[used..], optional).1 + used)
      decreases |answers| - used
    {
      var rest := answers[used..];
      assert rest[0] == answers[used] && rest[1..] == answers[used + 1..];
      var val := Strip(answers[used]);
      used := used + 1;
      if val == "" && optional {
        r := Skipped;
        break;
      }
      if val != "" {
        r := Given(val);
        break;
      }
    }
  }

  /** `input(prompt).strip() or None`. */
  function OrNone(answer: string): (v: Value)
    ensures v == Null <==> AllSpace(answer)
    ensures v != Null ==> v == Str(Strip(answer)) && Strip(answer) != ""
  {
    var t := Strip(answer);
    if t == "" then Null else Str(t)
  }

  /** What every document the menu writes looks like: all five fields, a
      non-empty stripped name, a phone made only of digits and '+', an email
      and an address that are `None` or non-empty stripped strings, and a
      list of stripped tags without commas. */
  predicate MenuRecord(d: Doc) {
    && d.Keys == Fields
    && d["name"].Str? && d["name"].s != "" && IsStripped(d["name"].s)
    && d["phone"].Str? && IsPhone(d["phone"].s)
    && (d["email"] == Null || (d["email"].Str? && d["email"].s != "" && IsStripped(d["email"].s)))
    && (d["address"] == Null || (d["address"].Str? && d["address"].s != "" && IsStripped(d["address"].s)))
    && d["tags"].List?
    && forall k :: 0 <= k < |d["tags"].items| ==>
         d["tags"].items[k].Str? && IsStripped(d["tags"].items[k].s) && NoComma(d["tags"].items[k].s)
  }

  /** The document `add_contact` inserts, from the name and phone that
      `input_nonempty` returned and the raw email, address and tags answers. */
  function NewContact(name: string, phone: string, email: string, address: string, tags: string): Doc {
    map["name" := Str(name), "phone" := Str(NormalizePhone(phone)),
        "email" := OrNone(email), "address" := OrNone(address),
        "tags" := StrList(ParseTags(tags))]
  }

  /** The new record: the name as given, the phone normalized, a blank email
      or address stored as `None`, and no tags exactly for a blank answer. */
  lemma NewContactFields(name: string, phone: string, email: string, address: string, tags: string)
    ensures var d := NewContact(name, phone, email, address, tags);
      && d.Keys == Fields
      && d["name"] == Str(name)
      && d["phone"] == Str(NormalizePhone(phone))
      && (d["email"] == Null <==> AllSpace(email))
      && (d["address"] == Null <==> AllSpace(address))
      && (d["tags"] == List([]) <==> AllSpace(tags))
  {
    var d := NewContact(name, phone, email, address, tags);
    var ts := ParseTags(tags);
    assert d["tags"] == StrList(ts);
    if AllSpace(tags) {
      assert ts == [];
      assert StrList(ts).items == [];
    } else {
      assert |StrList(ts).items| != 0;
    }
  }

  /** Given a non-empty stripped name, as `input_nonempty` returns it, the
      new record has the shape of every record the menu writes. */
  lemma NewContactIsMenuRecord(name: string, phone: string, email: string, address: string, tags: string)
    requires name != "" && IsStripped(name)
    ensures MenuRecord(NewContact(name, phone, email, address, tags))
  {
  }

  /** The five answers `add_contact` uses. */
  datatype AddAnswers = AddAnswers(name: string, phone: string, email: string, address: string, tags: string)

  /** The answers `add_contact` uses, read from the answers typed: name and
      phone asked until non-blank (stripped), then the raw email, address
      and tags answers read once each; none when the answers run out first. */
  function ReadAdd(answers: seq<string>): Option<AddAnswers> {
    var name := Ask(answers, false);
    if !name.0.Given? then None
    else
      var rest := answers[name.1..];
      var phone := Ask(rest, false);
      if !phone.0.Given? || |rest| - phone.1 < 3 then None
      else
        var more := rest[phone.1..];
        Some(AddAnswers(name.0.text, phone.0.text, more[0], more[1], more[2]))
  }

  /** The answers read: a non-blank name at `i` and a non-blank phone at
      `j`, with blank answers only before each, and three more. */
  predicate AddReads(answers: seq<string>, i: nat, j: nat) {
    && i < j && j + 3 < |answers|
    && (forall k :: 0 <= k < i ==> AllSpace(answers[k])) && !AllSpace(answers[i])
    && (forall k :: i < k < j ==> AllSpace(answers[k])) && !AllSpace(answers[j])
  }

  /** `AskGiven` for the answers from `off` on, in the indices of the whole. */
  lemma AskGivenFrom(answers: seq<string>, off: nat)
    requires off <= |answers| && Ask(answers[off..], false).0.Given?
    ensures var u := Ask(answers[off..], false).1;
      && off + u <= |answers| && !AllSpace(answers[off + u - 1])
      && forall k :: off <= k < off + u - 1 ==> AllSpace(answers[k])
  {
    var rest := answers[off..];
    AskGiven(rest);
    var u := Ask(rest, false).1;
    assert answers[off + u - 1] == rest[u - 1];
    forall k | off <= k < off + u - 1 ensures AllSpace(answers[k]) {
      assert answers[k] == rest[k - off];
    }
  }

  /** Where the name and the phone `ReadAdd` takes were typed. */
  lemma ReadAddAt(answers: seq<string>)
    requires ReadAdd(answers).Some?
    ensures var n1 := Ask(answers, false).1;
      AddReads(answers, n1 - 1, n1 + Ask(answers[n1..], false).1 - 1)
  {
    var n1 := Ask(answers, false).1;
    assert answers[0..] == answers;
    AskGivenFrom(answers, 0);
    AskGivenFrom(answers, n1);
  }

  /** A record is added only after such answers, and from exactly those. */
  lemma AddAnswersRead(answers: seq<string>)
    requires ReadAdd(answers).Some?
    ensures exists i: nat, j: nat {:trigger AddReads(answers, i, j)} :: (AddReads(answers, i, j) &&
      ReadAdd(answers).value ==
        AddAnswers(Strip(answers[i]), Strip(answers[j]), answers[j + 1], answers[j + 2], answers[j + 3]))
  {
    var n1 := Ask(answers, false).1;
    var i, j := n1 - 1, n1 + Ask(answers[n1..], false).1 - 1;
    ReadAddAt(answers);
    AddAnswersComplete(answers, i, j);
  }

  /** Conversely, such answers always add a record, from those answers. */
  lemma AddAnswersComplete(answers: seq<string>, i: nat, j: nat)
    requires AddReads(answers, i, j)
    ensures ReadAdd(answers) ==
      Some(AddAnswers(Strip(answers[i]), Strip(answers[j]), answers[j + 1], answers[j + 2], answers[j + 3]))
  {
    AskFinds(answers, i);
    var rest := answers[i + 1..];
    assert forall k :: 0 <= k < j - i - 1 ==> rest[k] == answers[i + 1 + k];
    assert rest[j - i - 1] == answers[j];
    AskFinds(rest, j - i - 1);
    var more := rest[j - i..];
    assert more[0] == answers[j + 1] && more[1] == answers[j + 2] && more[2] == answers[j + 3];
  }

  /** Every record the menu adds has the shape of a menu record. */
  lemma AddedIsMenuRecord(answers: seq<string>)
    requires ReadAdd(answers).Some?
    ensures var a := ReadAdd(answers).value;
      MenuRecord(NewContact(a.name, a.phone, a.email, a.address, a.tags))
  {
    var name := Ask(answers, false);
    StripIdempotent(answers[name.1 - 1]);
    var a := ReadAdd(answers).value;
    NewContactIsMenuRecord(a.name, a.phone, a.email, a.address, a.tags);
  }

  /** `add_contact()`: inserts the record the answers give under a fresh
      identifier, or writes nothing when the answers run out. */
  method AddContact(col: Collection, answers: seq<string>) returns (out: Outcome)
    requires col.Valid()
    modifies col
    ensures col.Valid()
    ensures out.Added? || out.NoMoreInput?
    ensures out.Added? <==> ReadAdd(answers).Some?
    ensures out.Added? ==>
      var a := ReadAdd(answers).value;
      && out.id == old(col.nextId) && out.id !in old(col.docs) && col.nextId == old(col.nextId) + 1
      && col.docs == old(col.docs)[out.id := NewContact(a.name, a.phone, a.email, a.address, a.tags)]
    ensures out.NoMoreInput? ==> col.docs == old(col.docs) && col.nextId == old(col.nextId)
  {
    var name, used1 := InputNonempty(answers, false);
    if !name.Given? {
      return NoMoreInput;
    }
    var rest := answers[used1..];
    var phone, used2 := InputNonempty(rest, false);
    if !phone.Given? {
      return NoMoreInput;
    }
    rest := rest[used2..];
    if |rest| < 3 {
      return NoMoreInput;
    }
    var d := NewContact(name.text, phone.text, rest[0], rest[1], rest[2]);
    NewContactIsMenuRecord(name.text, phone.text, rest[0], rest[1], rest[2]);
    var id := col.InsertOne(d);
    return Added(id);
  }

  /** `input(prompt).strip() or doc.get(key)`. */
  function KeepOr(answer: string, stored: Doc, key: string): (v: Value)
    ensures AllSpace(answer) ==> v == Get(stored, key, Null)
    ensures !AllSpace(answer) ==> v == Str(Strip(answer))
  {
    var t := Strip(answer);
    if t == "" then Get(stored, key, Null) else Str(t)
  }

  /** The `$set` document `update_contact` builds from the stored document and
      the five answers; `None` when `normalize_phone` raises because the kept
      phone is neither a string nor a list of strings. */
  function UpdateFields(stored: Doc, name: string, phone: string, email: string,
                        address: string, tags: string): (r: Option<Doc>)
    ensures r.Some? <==> NormalizeValue(KeepOr(phone, stored, "phone")).Some?
    ensures r.Some? ==> r.value.Keys == Fields
  {
    var p := NormalizeValue(KeepOr(phone, stored, "phone"));
    if p.None? then None
    else
      var t := if Strip(tags) != "" then StrList(ParseTags(tags)) else Get(stored, "tags", List([]));
      Some(map["name" := KeepOr(name, stored, "name"), "phone" := Str(p.value),
               "email" := KeepOr(email, stored, "email"),
               "address" := KeepOr(address, stored, "address"), "tags" := t])
  }

  /** The `$set` document sets all five fields. A blank answer keeps the
      stored value (`None` for a missing field, `[]` for missing tags); a
      non-blank answer is stored stripped, and tags parsed. The phone is
      normalized whether answered or kept. */
  lemma UpdateFieldsValues(stored: Doc, name: string, phone: string, email: string,
                           address: string, tags: string)
    requires UpdateFields(stored, name, phone, email, address, tags).Some?
    ensures var u := UpdateFields(stored, name, phone, email, address, tags).value;
      && u.Keys == Fields
      && (AllSpace(name) ==> u["name"] == Get(stored, "name", Null))
      && (!AllSpace(name) ==> u["name"] == Str(Strip(name)))
      && (AllSpace(email) ==> u["email"] == Get(stored, "email", Null))
      && (!AllSpace(email) ==> u["email"] == Str(Strip(email)))
      && (AllSpace(address) ==> u["address"] == Get(stored, "address", Null))
      && (!AllSpace(address) ==> u["address"] == Str(Strip(address)))
      && u["phone"].Str? && IsPhone(u["phone"].s)
      && (!AllSpace(phone) ==> u["phone"] == Str(NormalizePhone(Strip(phone))))
      && (AllSpace(tags) ==> u["tags"] == Get(stored, "tags", List([])))
      && (!AllSpace(tags) ==> u["tags"] == StrList(ParseTags(tags)))
  {
  }

  /** Giving the same answers again to the updated document changes nothing
      more: the second `$set` equals the first. */
  lemma UpdateIdempotent(stored: Doc, name: string, phone: string, email: string,
                         address: string, tags: string)
    requires UpdateFields(stored, name, phone, email, address, tags).Some?
    ensures var u := UpdateFields(stored, name, phone, email, address, tags).value;
      UpdateFields(stored + u, name, phone, email, address, tags) == Some(u)
  {
    var u := UpdateFields(stored, name, phone, email, address, tags).value;
    var s2 := stored + u;
    assert KeepOr(phone, s2, "phone") == u["phone"] || !AllSpace(phone);
    NormalizeFixes(u["phone"].s);
    if !AllSpace(phone) {
      NormalizeIdempotent(Strip(phone));
    }
    var u2 := UpdateFields(s2, name, phone, email, address, tags).value;
    assert u2["name"] == u["name"] && u2["email"] == u["email"] && u2["address"] == u["address"];
    assert u2["phone"] == u["phone"] && u2["tags"] == u["tags"];
  }

  /** All-blank answers leave a menu record exactly as it was. */
  lemma BlankUpdateKeepsRecord(stored: Doc, name: string, phone: string, email: string,
                               address: string, tags: string)
    requires MenuRecord(stored)
    requires AllSpace(name) && AllSpace(phone) && AllSpace(email) && AllSpace(address) && AllSpace(tags)
    ensures UpdateFields(stored, name, phone, email, address, tags).Some?
    ensures stored + UpdateFields(stored, name, phone, email, address, tags).value == stored
  {
    NormalizeFixes(stored["phone"].s);
    var u := UpdateFields(stored, name, phone, email, address, tags).value;
    assert stored + u == stored;
  }

  /** A blank phone answer still normalizes the stored phone. */
  lemma BlankPhoneIsNormalized(stored: Doc)
    requires "phone" in stored && stored["phone"].Str?
    ensures var r := UpdateFields(stored, "", "", "", "", "");
      r.Some? && r.value["phone"] == Str(NormalizePhone(stored["phone"].s))
  {
  }

  /** `show_contact(doc)` prints every field; only its `", ".join` of the
      tags can raise. */
  predicate Showable(d: Doc) {
    TagsCell(Get(d, "tags", List([]))).Some?
  }

  /** The outcome and the new table of `get_contact_by_id` followed by
      `update_contact`. The identifier is asked until non-blank; a text that
      is not an ObjectId is "Invalid ID format" (no stored identifier is a
      plain string, so the fallback lookup by text finds nothing); an unknown
      one is "No contact found". The found record is shown, and joining its
      tags raises unless they are a string or a list of strings. Then name
      and phone are read, the phone in
      use is normalized (which raises unless it is a string or a list of
      strings), and only then email, address and tags are read. */
  function UpdatePlan(t: map<Id, Doc>, answers: seq<string>): (out: (Outcome, map<Id, Doc>))
    ensures !out.0.Updated? ==> out.1 == t
  {
    var raw := Ask(answers, false);
    if !raw.0.Given? then (NoMoreInput, t)
    else
      var id := ParseId(raw.0.text);
      if id.None? then (InvalidId, t)
      else if id.value !in t then (NotFound, t)
      else
        var doc := t[id.value];
        var a := answers[raw.1..];
        if !Showable(doc) then (Crashed, t)
        else if |a| < 2 then (NoMoreInput, t)
        else if NormalizeValue(KeepOr(a[1], doc, "phone")).None? then (Crashed, t)
        else if |a| < 5 then (NoMoreInput, t)
        else
          var u := UpdateFields(doc, a[0], a[1], a[2], a[3], a[4]);
          (Updated(id.value), t[id.value := doc + u.value])
  }

  /** An update writes the record whose identifier was typed, and no other:
      that record gets the `$set` of the five answers after the identifier,
      and every other record and every key stays as it was. */
  lemma UpdateOnlyThatRecord(t: map<Id, Doc>, answers: seq<string>)
    requires UpdatePlan(t, answers).0.Updated?
    ensures var raw, out := Ask(answers, false), UpdatePlan(t, answers);
      var id, a := out.0.id, answers[raw.1..];
      && raw.0.Given? && ParseId(raw.0.text) == Some(id) && id in t && Showable(t[id]) && |a| >= 5
      && UpdateFields(t[id], a[0], a[1], a[2], a[3], a[4]).Some?
      && out.1 == t[id := t[id] + UpdateFields(t[id], a[0], a[1], a[2], a[3], a[4]).value]
      && out.1.Keys == t.Keys
      && forall j :: j in t && j != id ==> out.1[j] == t[j]
  {
  }

  /** The menu's update decides between the outcomes by the typed identifier,
      the tags of the record it names and the answers after it, in the order
      the prompts come. */
  lemma UpdateOutcomes(t: map<Id, Doc>, answers: seq<string>)
    ensures var raw, out := Ask(answers, false), UpdatePlan(t, answers).0;
      var a := answers[raw.1..];
      var found := raw.0.Given? && ParseId(raw.0.text).Some? && ParseId(raw.0.text).value in t;
      && (out == InvalidId <==> raw.0.Given? && ParseId(raw.0.text).None?)
      && (out == NotFound <==> raw.0.Given? && ParseId(raw.0.text).Some? && ParseId(raw.0.text).value !in t)
      && (out == Crashed <==>
            found && (!Showable(t[ParseId(raw.0.text).value]) ||
              (|a| >= 2 && NormalizeValue(KeepOr(a[1], t[ParseId(raw.0.text).value], "phone")).None?)))
      && (out == NoMoreInput <==>
            !raw.0.Given? ||
            (found && Showable(t[ParseId(raw.0.text).value]) &&
             (|a| < 2 || (|a| < 5 &&
               NormalizeValue(KeepOr(a[1], t[ParseId(raw.0.text).value], "phone")).Some?))))
  {
  }

  /** The phone is normalized right after it is read: a record whose phone is
      `None` (as an import keeps a falsy phone) makes two blank answers raise,
      before email, address and tags are asked. */
  lemma NullPhoneRaisesEarly(t: map<Id, Doc>, id: Id)
    requires id in t && id < IdLimit && t[id] == map["name" := Str("A"), "phone" := Null]
    ensures UpdatePlan(t, [IdText(id), "", ""]) == (Crashed, t)
  {
    var answers := [IdText(id), "", ""];
    IdTextRoundTrip(id);
    assert !AllSpace(answers[0]) by {
      assert IdText(id)[0] != ' ';
      assert !IsSpace(IdText(id)[0]);
    }
    assert IsStripped(IdText(id));
    assert IdText(id) == [] + IdText(id) + [];
    StripUnique([], IdText(id), []);
    AskFinds(answers, 0);
    assert answers[1..] == ["", ""];
  }

  /** `get_contact_by_id` followed by `update_contact`. */
  method UpdateContact(col: Collection, answers: seq<string>) returns (out: Outcome)
    requires col.Valid()
    modifies col
    ensures col.Valid() && col.nextId == old(col.nextId)
    ensures (out, col.docs) == UpdatePlan(old(col.docs), answers)
  {
    var raw, used := InputNonempty(answers, false);
    if !raw.Given? {
      return NoMoreInput;
    }
    var id := ParseId(raw.text);
    if id.None? {
      return InvalidId;
    }
    var doc := col.FindOne(id.value);
    if doc.None? {
      return NotFound;
    }
    var shown := TagsCell(Get(doc.value, "tags", List([])));
    if shown.None? {
      return Crashed;
    }
    var a := answers[used..];
    if |a| < 2 {
      return NoMoreInput;
    }
    var phone := NormalizeValue(KeepOr(a[1], doc.value, "phone"));
    if phone.None? {
      return Crashed;
    }
    if |a| < 5 {
      return NoMoreInput;
    }
    var u := UpdateFields(doc.value, a[0], a[1], a[2], a[3], a[4]);
    var matched := col.UpdateOne(id.value, u.value);
    return Updated(id.value);
  }

  /** The outcome and the new table of `get_contact_by_id` followed by
      `delete_contact`: the found record is shown (which raises on tags that
      cannot be joined), and it is deleted only when the next answer,
      stripped and lower-cased, is "yes". */
  function DeletePlan(t: map<Id, Doc>, answers: seq<string>): (out: (Outcome, map<Id, Doc>))
    ensures !out.0.Deleted? ==> out.1 == t
  {
    var raw := Ask(answers, false);
    if !raw.0.Given? then (NoMoreInput, t)
    else
      var id := ParseId(raw.0.text);
      if id.None? then (InvalidId, t)
      else if id.value !in t then (NotFound, t)
      else if !Showable(t[id.value]) then (Crashed, t)
      else if raw.1 == |answers| then (NoMoreInput, t)
      else if Lower(Strip(answers[raw.1])) == "yes" then (Deleted(id.value), t - {id.value})
      else (Aborted, t)
  }

  /** A record is deleted exactly when the typed identifier names it, its
      tags can be shown and the answer after it is "yes"; then that record
      alone is removed. */
  lemma DeleteOnlyConfirmed(t: map<Id, Doc>, answers: seq<string>)
    ensures var raw, out := Ask(answers, false), DeletePlan(t, answers);
      var shown := raw.0.Given? && ParseId(raw.0.text).Some? && ParseId(raw.0.text).value in t
        && Showable(t[ParseId(raw.0.text).value]);
      && (out.0.Deleted? <==> shown && raw.1 < |answers| && Lower(Strip(answers[raw.1])) == "yes")
      && (out.0.Deleted? ==> out.0.id == ParseId(raw.0.text).value && out.1 == t - {out.0.id})
      && (out.0 == Aborted <==> shown && raw.1 < |answers| && Lower(Strip(answers[raw.1])) != "yes")
  {
  }

  /** The outcomes of the menu's delete that write nothing, each exactly
      under its own condition. */
  lemma DeleteFailures(t: map<Id, Doc>, answers: seq<string>)
    ensures var raw, out := Ask(answers, false), DeletePlan(t, answers).0;
      var found := raw.0.Given? && ParseId(raw.0.text).Some? && ParseId(raw.0.text).value in t;
      && (out == InvalidId <==> raw.0.Given? && ParseId(raw.0.text).None?)
      && (out == NotFound <==> raw.0.Given? && ParseId(raw.0.text).Some? && ParseId(raw.0.text).value !in t)
      && (out == Crashed <==> found && !Showable(t[ParseId(raw.0.text).value]))
      && (out == NoMoreInput <==>
            !raw.0.Given? || (found && Showable(t[ParseId(raw.0.text).value]) && raw.1 == |answers|))
  {
  }

  /** `get_contact_by_id` followed by `delete_contact`. */
  method DeleteContact(col: Collection, answers: seq<string>) returns (out: Outcome)
    requires col.Valid()
    modifies col
    ensures col.Valid() && col.nextId == old(col.nextId)
    ensures (out, col.docs) == DeletePlan(old(col.docs), answers)
  {
    var raw, used := InputNonempty(answers, false);
    if !raw.Given? {
      return NoMoreInput;
    }
    var id := ParseId(raw.text);
    if id.None? {
      return InvalidId;
    }
    var doc := col.FindOne(id.value);
    if doc.None? {
      return NotFound;
    }
    var shown := TagsCell(Get(doc.value, "tags", List([])));
    if shown.None? {
      return Crashed;
    }
    if used == |answers| {
      return NoMoreInput;
    }
    var confirm := Lower(Strip(answers[used]));
    if confirm == "yes" {
      var deleted := col.DeleteOne(id.value);
      return Deleted(id.value);
    }
    return Aborted;
  }

  /** The stored documents under `ids`, in that order. */
  function Stored(ids: seq<Id>, t: map<Id, Doc>): (docs: seq<Doc>)
    requires forall i :: 0 <= i < |ids| ==> ids[i] in t
    ensures |docs| == |ids|
  {
    if ids == [] then [] else [t[ids[0]]] + Stored(ids[1..], t)
  }

  /** `export_contacts`: each document with its identifier as text. */
  function ExportDoc(id: Id, d: Doc): (e: Doc)
    ensures e.Keys == d.Keys + {IdKey}
    ensures e[IdKey] == Str(IdText(id))
    ensures forall k :: k in d && k != IdKey ==> e[k] == d[k]
  {
    d[IdKey := Str(IdText(id))]
  }

  function ExportAll(ids: seq<Id>, t: map<Id, Doc>): (docs: seq<Doc>)
    requires forall i :: 0 <= i < |ids| ==> ids[i] in t
    ensures |docs| == |ids|
    ensures forall i :: 0 <= i < |ids| ==> docs[i] == ExportDoc(ids[i], t[ids[i]])
  {
    seq(|ids|, i requires 0 <= i < |ids| => ExportDoc(ids[i], t[ids[i]]))
  }

  /** `export_contacts()` without the file: a copy of every document, in the
      cursor's order, with `_id` replaced by its text. */
  method ExportContacts(col: Collection) returns (docs: seq<Doc>)
    ensures exists ids :: Enumerates(ids, col.docs.Keys) && docs == ExportAll(ids, col.docs)
  {
    var ids := col.Find();
    docs := [];
    for i := 0 to |ids|
      invariant docs == ExportAll(ids[..i], col.docs)
    {
      docs := docs + [ExportDoc(ids[i], col.docs[ids[i]])];
    }
    assert ids[..|ids|] == ids;
  }

  /** What `import_contacts` does with one document of the file. */
  datatype Imported = Skip | Insert(doc: Doc) | Fail

  predicate Named(d: Doc) {
    "name" in d && Truthy(d["name"])
  }

  /** One turn of the `import_contacts` loop: `_id` is dropped, a document
      without a truthy name is skipped, a truthy phone is normalized (which
      raises unless it is a string or a list of strings), a missing phone
      becomes "", and missing tags become []. */
  function ImportDoc(d: Doc): (r: Imported)
    ensures r.Skip? <==> !Named(d)
    ensures r.Fail? <==> Named(d) && "phone" in d && Truthy(d["phone"]) && NormalizeValue(d["phone"]).None?
    ensures r.Insert? ==>
      && IdKey !in r.doc && Named(r.doc) && r.doc["name"] == d["name"]
      && "phone" in r.doc && "tags" in r.doc
      && ("phone" !in d ==> r.doc["phone"] == Str(""))
      && ("phone" in d && !Truthy(d["phone"]) ==> r.doc["phone"] == d["phone"])
      && ("phone" in d && Truthy(d["phone"]) ==>
            r.doc["phone"].Str? && r.doc["phone"] == Str(NormalizeValue(d["phone"]).value))
      && r.doc["tags"] == Get(d, "tags", List([]))
      && forall k :: k != IdKey && k != "phone" && k != "tags" ==>
           (k in r.doc <==> k in d) && (k in d ==> r.doc[k] == d[k])
  {
    var d1 := d - {IdKey};
    if !Named(d1) then Skip
    else
      var d2 :=
        if "phone" in d1 && Truthy(d1["phone"]) then
          var p := NormalizeValue(d1["phone"]);
          if p.None? then None else Some(d1["phone" := Str(p.value)])
        else if "phone" in d1 then Some(d1)
        else Some(d1["phone" := Str("")]);
      if d2.None? then Fail
      else if "tags" in d2.value then Insert(d2.value)
      else Insert(d2.value["tags" := List([])])
  }

  /** An imported document keeps `"tags": null`, and the menu then raises
      whenever it shows the record. */
  lemma ImportedNullTagsNotShowable(d: Doc)
    requires Named(d) && "tags" in d && d["tags"] == Null
    ensures !ImportDoc(d).Skip?
    ensures ImportDoc(d).Insert? ==> !Showable(ImportDoc(d).doc)
  {
  }

  /** How many documents have a truthy name. */
  function NamedCount(ds: seq<Doc>): nat {
    if ds == [] then 0 else (if Named(ds[0]) then 1 else 0) + NamedCount(ds[1..])
  }

  /** The whole `import_contacts` loop: the documents inserted, in order, and
      whether an exception stopped the loop. Without an exception the count
      is the number of named documents. */
  function ImportAll(ds: seq<Doc>): (r: (seq<Doc>, bool))
    ensures !r.1 ==> |r.0| == NamedCount(ds)
    ensures |r.0| <= NamedCount(ds)
    ensures forall i :: 0 <= i < |r.0| ==>
      IdKey !in r.0[i] && Named(r.0[i]) && "phone" in r.0[i] && "tags" in r.0[i]
  {
    if ds == [] then ([], false)
    else
      match ImportDoc(ds[0])
      case Skip => ImportAll(ds[1..])
      case Fail => ([], true)
      case Insert(d) =>
        var rest := ImportAll(ds[1..]);
        ([d] + rest.0, rest.1)
  }

  /** The loop over a concatenation: the second part only runs when the first
      did not raise. */
  lemma {:induction false} ImportAllAppend(a: seq<Doc>, b: seq<Doc>)
    ensures ImportAll(a + b) ==
      if ImportAll(a).1 then ImportAll(a) else (ImportAll(a).0 + ImportAll(b).0, ImportAll(b).1)
  {
    if a == [] {
      assert a + b == b;
      assert ImportAll(a) == ([], false);
      assert [] + ImportAll(b).0 == ImportAll(b).0;
    } else {
      assert (a + b)[0] == a[0] && (a + b)[1..] == a[1..] + b;
      ImportAllAppend(a[1..], b);
      match ImportDoc(a[0])
      case Skip =>
      case Fail =>
      case Insert(d) =>
        assert [d] + (ImportAll(a[1..]).0 + ImportAll(b).0) == ([d] + ImportAll(a[1..]).0) + ImportAll(b).0;
    }
  }

  /** The loop over a document it inserts followed by more documents. */
  lemma ImportAllCons(d: Doc, ds: seq<Doc>, x: Doc)
    requires ImportDoc(d) == Insert(x)
    ensures ImportAll([d] + ds) == ([x] + ImportAll(ds).0, ImportAll(ds).1)
  {
    assert ([d] + ds)[0] == d && ([d] + ds)[1..] == ds;
  }

  /** One more turn of the loop, after turns that did not raise. */
  lemma ImportAllStep(ds: seq<Doc>, i: nat)
    requires i < |ds| && !ImportAll(ds[..i]).1
    ensures var before := ImportAll(ds[..i]).0;
      ImportAll(ds[..i + 1]) ==
        match ImportDoc(ds[i])
        case Skip => (before, false)
        case Fail => (before, true)
        case Insert(x) => (before + [x], false)
  {
    var d := ds[i];
    assert ds[..i + 1] == ds[..i] + [d];
    ImportAllAppend(ds[..i], [d]);
    assert [d][1..] == [] && [d][0] == d;
    var before := ImportAll(ds[..i]).0;
    match ImportDoc(d)
    case Skip =>
      assert ImportAll([d]) == ImportAll([]) == ([], false);
      assert before + [] == before;
    case Fail =>
      assert ImportAll([d]) == ([], true);
      assert before + [] == before;
    case Insert(x) =>
      assert ImportAll([d]) == ([x] + [], false);
      assert [x] + [] == [x];
  }

  /** The turns after an exception never run. */
  lemma ImportAllStops(ds: seq<Doc>, i: nat)
    requires i <= |ds| && ImportAll(ds[..i]).1
    ensures ImportAll(ds) == ImportAll(ds[..i])
  {
    ImportAllAppend(ds[..i], ds[i..]);
    assert ds[..i] + ds[i..] == ds;
  }

  /** `import_contacts()` without the file: the documents are cleaned and
      inserted one after another; an exception stops the loop and leaves the
      earlier inserts in place. */
  method ImportContacts(col: Collection, docs: seq<Doc>) returns (count: nat, crashed: bool)
    requires col.Valid()
    modifies col
    ensures col.Valid()
    ensures crashed == ImportAll(docs).1 && count == |ImportAll(docs).0|
    ensures !crashed ==> count == NamedCount(docs)
    ensures col.nextId == old(col.nextId) + count
    ensures col.docs == Appended(old(col.docs), old(col.nextId), ImportAll(docs).0)
  {
    count, crashed := 0, false;
    ghost var inserted: seq<Doc> := [];
    assert docs[..0] == [];
    for i := 0 to |docs|
      invariant ImportAll(docs[..i]) == (inserted, false)
      invariant count == |inserted|
      invariant col.Valid() && col.nextId == old(col.nextId) + count
      invariant col.docs == Appended(old(col.docs), old(col.nextId), inserted)
    {
      ImportAllStep(docs, i);
      match ImportDoc(docs[i]) {
        case Skip =>
        case Fail =>
          crashed := true;
          ImportAllStops(docs, i + 1);
          return;
        case Insert(d) =>
          var id := col.InsertOne(d);
          assert (inserted + [d])[..|inserted|] == inserted;
          inserted := inserted + [d];
          count := count + 1;
      }
    }
    assert docs[..|docs|] == docs;
  }

  /** The documents an export followed by an import leaves exactly as they
      were: named, with a phone key whose truthy value is already normalized,
      and with a tags key. */
  predicate SurvivesImport(d: Doc) {
    && Named(d)
    && "phone" in d && (Truthy(d["phone"]) ==> d["phone"].Str? && IsPhone(d["phone"].s))
    && "tags" in d
  }

  /** Exporting a stored document and importing it again inserts the same
      document exactly when it survives the import's clean-up. */
  lemma ExportImportDoc(id: Id, d: Doc)
    requires IdKey !in d
    ensures ImportDoc(ExportDoc(id, d)) == Insert(d) <==> SurvivesImport(d)
  {
    var e := ExportDoc(id, d);
    assert e - {IdKey} == d;
    if "phone" in d && Truthy(d["phone"]) && d["phone"].Str? {
      NormalizeFixes(d["phone"].s);
    }
    if ImportDoc(e) == Insert(d) && "phone" in d && Truthy(d["phone"]) {
      assert d["phone"].Str?;
    }
  }

  /** Exporting the whole collection and importing the file re-creates every
      document, in the cursor's order, when every document survives the
      import's clean-up. */
  lemma {:induction false} ExportImportAll(ids: seq<Id>, t: map<Id, Doc>)
    requires forall i :: 0 <= i < |ids| ==> ids[i] in t && IdKey !in t[ids[i]] && SurvivesImport(t[ids[i]])
    ensures ImportAll(ExportAll(ids, t)) == (Stored(ids, t), false)
  {
    if ids == [] {
      assert ExportAll(ids, t) == [];
    } else {
      var tail := ids[1..];
      var head := ExportDoc(ids[0], t[ids[0]]);
      assert ExportAll(ids, t) == [head] + ExportAll(tail, t);
      ExportImportAll(tail, t);
      assert ImportDoc(head) == Insert(t[ids[0]]) by {
        ExportImportDoc(ids[0], t[ids[0]]);
      }
      ImportAllCons(head, ExportAll(tail, t), t[ids[0]]);
    }
  }

  /** Every record `add_contact` writes survives an export and an import. */
  lemma NewContactSurvives(name: string, phone: string, email: string, address: string, tags: string)
    requires name != ""
    ensures SurvivesImport(NewContact(name, phone, email, address, tags))
  {
  }
}

=== FILE: frontends.dfy ===
/**
 * The two front ends over one collection. The menu always opens
 * `contact_manager.contacts`; the API opens the database named by
 * `DB_NAME`, `contact_db` by default. When the API is started with
 * `DB_NAME=contact_manager` (and the menu's server) both see the same
 * records, and these lemmas say what one front end does to a record the
 * other wrote.
 */
module FrontEnds {
  import opened Text
  import opened Values
  import opened Ids
  import opened Api
  import Cli

  /** The API stores a phone as typed (only stripped), so a record it creates
      can be changed by the menu's export and import: "(5)" comes back as
      "5". */
  lemma CreatedPhoneChangesOnImport()
    ensures var body := map["name" := Str("A"), "phone" := Str("(5)")];
      && NewRecord(body).Ok?
      && NewRecord(body).doc["phone"] == Str("(5)")
      && !Cli.SurvivesImport(NewRecord(body).doc)
  {
    var body := map["name" := Str("A"), "phone" := Str("(5)")];
    assert "A" == [] + "A" + [];
    StripUnique([], "A", []);
    assert "(5)" == [] + "(5)" + [];
    StripUnique([], "(5)", []);
    var d := NewRecord(body).doc;
    assert d["phone"].s[0] == '(';
  }

  /** Tags sent as `null` are stored as `null`, and the menu then raises
      while showing that record: neither its delete nor its update can ever
      remove or change it. */
  lemma NullTagsBlockMenu(body: Doc, t: map<Id, Doc>, id: Id, answers: seq<string>)
    requires NewRecord(body).Ok? && "tags" in body && body["tags"] == Null
    requires id in t && t[id] == NewRecord(body).doc
    ensures id in Cli.DeletePlan(t, answers).1 && Cli.DeletePlan(t, answers).1[id] == t[id]
    ensures id in Cli.UpdatePlan(t, answers).1 && Cli.UpdatePlan(t, answers).1[id] == t[id]
  {
    assert !Cli.Showable(t[id]);
    if Cli.DeletePlan(t, answers).0.Deleted? {
      Cli.DeleteOnlyConfirmed(t, answers);
    }
    if Cli.UpdatePlan(t, answers).0.Updated? {
      Cli.UpdateOnlyThatRecord(t, answers);
    }
  }
}

=== FILE: ids.dfy ===
/**
 * Document identifiers. The database's ObjectId is printed by `str(...)` as
 * 24 lower-case hexadecimal digits, and `ObjectId(text)` accepts 24
 * hexadecimal digits of either case. Here only such texts name an
 * identifier; whitespace between digit pairs is not accepted. An
 * identifier is a natural number; its text is its hexadecimal form padded
 * with zeros to at least 24 digits.
 */
module Ids {
  import opened Values

  type Id = nat

  /** Number of hexadecimal digits in an ObjectId's text. */
  const IdDigits: nat := 24

  /** How many identifiers 24 hexadecimal digits can name: 16 to the 24th. */
  const IdLimit: nat := 0x1_0000_0000_0000_0000_0000_0000

  function Pow16(n: nat): (p: nat)
    ensures p >= 1
  {
    if n == 0 then 1 else 16 * Pow16(n - 1)
  }

  predicate IsHexDigit(c: char) {
    '0' <= c <= '9' || 'a' <= c <= 'f' || 'A' <= c <= 'F'
  }

  predicate IsLowerHexDigit(c: char) {
    '0' <= c <= '9' || 'a' <= c <= 'f'
  }

  predicate AllHex(s: string) {
    forall i :: 0 <= i < |s| ==> IsHexDigit(s[i])
  }

  function DigitValue(c: char): (d: nat)
    requires IsHexDigit(c)
    ensures d < 16
  {
    if '0' <= c <= '9' then c as int - '0' as int
    else if 'a' <= c <= 'f' then c as int - 'a' as int + 10
    else c as int - 'A' as int + 10
  }

  function DigitChar(d: nat): (c: char)
    requires d < 16
    ensures IsLowerHexDigit(c) && DigitValue(c) == d
  {
    if d < 10 then ('0' as int + d) as char else ('a' as int + d - 10) as char
  }

  /** The `w` lowest hexadecimal digits of `n`, most significant first. */
  function FixedHex(n: nat, w: nat): (s: string)
    ensures |s| == w
    ensures forall i :: 0 <= i < |s| ==> IsLowerHexDigit(s[i])
  {
    if w == 0 then "" else FixedHex(n / 16, w - 1) + [DigitChar(n % 16)]
  }

  /** The value of a string of hexadecimal digits. */
  function HexValue(s: string): nat
    requires AllHex(s)
  {
    if s == [] then 0 else HexValue(s[..|s| - 1]) * 16 + DigitValue(s[|s| - 1])
  }

  /** The smallest width of at least 24 digits that holds `n`. */
  function Width(n: nat): (w: nat)
    ensures w >= IdDigits && n < Pow16(w)
    ensures w == IdDigits <==> n < IdLimit
  {
    if n < IdLimit then
      Pow16IdDigits();
      IdDigits
    else
      Width(n / 16) + 1
  }

  /** Powers of 16 multiply by adding exponents. */
  lemma {:induction false} Pow16Add(a: nat, b: nat)
    ensures Pow16(a + b) == Pow16(a) * Pow16(b)
  {
    if a > 0 {
      Pow16Add(a - 1, b);
    }
  }

  lemma Pow16IdDigits()
    ensures Pow16(IdDigits) == IdLimit
  {
    assert Pow16(6) == 0x100_0000;
    Pow16Add(6, 6);
    Pow16Add(12, 12);
  }

  /** `str(oid)`: lower-case hexadecimal, at least 24 digits. */
  function IdText(id: Id): (s: string)
    ensures |s| >= IdDigits
    ensures |s| == IdDigits <==> id < IdLimit
    ensures forall i :: 0 <= i < |s| ==> IsLowerHexDigit(s[i])
  {
    FixedHex(id, Width(id))
  }

  /** `ObjectId(text)`: the identifier named by exactly 24 hexadecimal digits,
      and nothing for any other text of the model. */
  function ParseId(s: string): (r: Option<Id>)
    ensures r.Some? <==> |s| == IdDigits && AllHex(s)
  {
    if |s| == IdDigits && AllHex(s) then Some(HexValue(s)) else None
  }

  lemma {:induction false} HexValueOfFixed(n: nat, w: nat)
    requires n < Pow16(w)
    ensures AllHex(FixedHex(n, w)) && HexValue(FixedHex(n, w)) == n
  {
    if w > 0 {
      var s := FixedHex(n, w);
      HexValueOfFixed(n / 16, w - 1);
      assert s[..|s| - 1] == FixedHex(n / 16, w - 1);
    }
  }

  lemma {:induction false} HexValueBound(s: string)
    requires AllHex(s)
    ensures HexValue(s) < Pow16(|s|)
  {
    if s != [] {
      HexValueBound(s[..|s| - 1]);
    }
  }

  function LowerHex(c: char): char
    requires IsHexDigit(c)
  {
    if 'A' <= c <= 'F' then (c as int + 32) as char else c
  }

  lemma {:induction false} FixedOfHexValue(s: string)
    requires AllHex(s)
    ensures FixedHex(HexValue(s), |s|) == seq(|s|, i requires 0 <= i < |s| => LowerHex(s[i]))
  {
    if s != [] {
      var init := s[..|s| - 1];
      FixedOfHexValue(init);
      var n := HexValue(s);
      assert n / 16 == HexValue(init) && n % 16 == DigitValue(s[|s| - 1]);
    }
  }

  /** Printing an identifier and parsing the text back gives the identifier,
      exactly when it fits the 24 digits of an ObjectId. */
  lemma IdTextRoundTrip(id: Id)
    ensures ParseId(IdText(id)) == Some(id) <==> id < IdLimit
  {
    Pow16IdDigits();
    if id < IdLimit {
      HexValueOfFixed(id, IdDigits);
    }
  }

  /** Distinct identifiers print differently. */
  lemma IdTextInjective(a: Id, b: Id)
    requires IdText(a) == IdText(b)
    ensures a == b
  {
    HexValueOfFixed(a, Width(a));
    HexValueOfFixed(b, Width(b));
  }

  /** Every accepted text names the identifier that prints as its lower-case
      form: parsing ignores the case of the hexadecimal letters. */
  lemma ParsedIdText(s: string)
    requires ParseId(s).Some?
    ensures IdText(ParseId(s).value) == seq(|s|, i requires 0 <= i < |s| => LowerHex(s[i]))
  {
    Pow16IdDigits();
    HexValueBound(s);
    FixedOfHexValue(s);
  }
}

=== FILE: phone.dfy ===
/**
 * Phone normalization of the menu front end (CLI/contacts.py): keep only the
 * characters that are digits or '+', in their order, and drop everything
 * else.
 */
module Phone {
  import opened Text
  import opened Values

  predicate IsPhoneChar(c: char) {
    IsDigit(c) || c == '+'
  }

  predicate IsPhone(s: string) {
    forall i :: 0 <= i < |s| ==> IsPhoneChar(s[i])
  }

  /** `normalize_phone(phone)` on a string. */
  function NormalizePhone(s: string): (r: string)
    ensures IsPhone(r)
    ensures |r| <= |s|
  {
    if s == [] then []
    else (if IsPhoneChar(s[0]) then [s[0]] else []) + NormalizePhone(s[1..])
  }

  /** Normalization distributes over concatenation: each character is kept or
      dropped on its own. */
  lemma {:induction false} NormalizeConcat(a: string, b: string)
    ensures NormalizePhone(a + b) == NormalizePhone(a) + NormalizePhone(b)
  {
    if a != [] {
      assert (a + b)[0] == a[0] && (a + b)[1..] == a[1..] + b;
      NormalizeConcat(a[1..], b);
    } else {
      assert a + b == b;
    }
  }

  /** A string is left unchanged exactly when it is made only of digits and
      '+'. */
  lemma {:induction false} NormalizeFixes(s: string)
    ensures NormalizePhone(s) == s <==> IsPhone(s)
  {
    if s != [] {
      NormalizeFixes(s[1..]);
      if !IsPhoneChar(s[0]) {
        assert |NormalizePhone(s)| < |s| by {
          assert NormalizePhone(s) == NormalizePhone(s[1..]);
        }
      }
    }
  }

  /** Normalizing twice is normalizing once. */
  lemma {:induction false} NormalizeIdempotent(s: string)
    ensures NormalizePhone(NormalizePhone(s)) == NormalizePhone(s)
  {
    NormalizeFixes(NormalizePhone(s));
  }

  /** `sub` is obtained from `s` by deleting characters: each character of
      `s` is either skipped or matched with the next character of `sub`. */
  predicate IsSubsequence(sub: string, s: string) {
    if s == [] then sub == []
    else
      || IsSubsequence(sub, s[1..])
      || (sub != [] && sub[0] == s[0] && IsSubsequence(sub[1..], s[1..]))
  }

  /** The output keeps input characters in their input order. */
  lemma {:induction false} NormalizeSubsequence(s: string)
    ensures IsSubsequence(NormalizePhone(s), s)
  {
    if s != [] {
      NormalizeSubsequence(s[1..]);
      var r := NormalizePhone(s);
      if IsPhoneChar(s[0]) {
        assert r == [s[0]] + NormalizePhone(s[1..]);
        assert r != [] && r[0] == s[0] && r[1..] == NormalizePhone(s[1..]);
        assert IsSubsequence(r[1..], s[1..]);
      } else {
        assert r == NormalizePhone(s[1..]);
      }
    }
  }

  /** Every digit and every '+' of the input survives, as often as it occurs. */
  lemma {:induction false} NormalizeKeepsPhoneChars(s: string, c: char)
    requires IsPhoneChar(c)
    ensures multiset(NormalizePhone(s))[c] == multiset(s)[c]
  {
    if s != [] {
      NormalizeKeepsPhoneChars(s[1..], c);
      assert s == [s[0]] + s[1..];
    }
  }

  /** `str.isdigit` on a whole string: non-empty and made only of digits. */
  predicate IsDigitString(s: string) {
    s != [] && forall i :: 0 <= i < |s| ==> IsDigit(s[i])
  }

  /** `normalize_phone(items)` on a list: the generator asks each item for
      `isdigit()`, so every item must be a string; it keeps the items that are
      digit strings or "+" and concatenates them. */
  function NormalizeItems(items: seq<Value>): (r: Option<string>)
    ensures r.Some? <==> forall i :: 0 <= i < |items| ==> items[i].Str?
    ensures r.Some? ==> IsPhone(r.value)
  {
    if items == [] then Some("")
    else if !items[0].Str? then None
    else
      var rest := NormalizeItems(items[1..]);
      if rest.None? then None
      else
        var t := items[0].s;
        var kept := if IsDigitString(t) || t == "+" then t else "";
        assert IsPhone(kept);
        assert forall i :: 0 <= i < |kept + rest.value| ==>
          (kept + rest.value)[i] == (if i < |kept| then kept[i] else rest.value[i - |kept|]);
        Some(kept + rest.value)
  }

  /** `normalize_phone(v)` on any stored value: a string is filtered character
      by character, a list of strings item by item, and anything else makes
      the generator raise (an integer or `None` is not iterable, a non-string
      item has no `isdigit`). */
  function NormalizeValue(v: Value): (r: Option<string>)
    ensures v.Str? ==> r == Some(NormalizePhone(v.s))
    ensures r.Some? <==> v.Str? || (v.List? && forall i :: 0 <= i < |v.items| ==> v.items[i].Str?)
    ensures r.Some? ==> IsPhone(r.value)
  {
    match v
    case Str(s) => Some(NormalizePhone(s))
    case List(items) => NormalizeItems(items)
    case _ => None
  }
}

=== FILE: store.dfy ===
/**
 * The MongoDB collection both front ends talk to, reduced to the calls they
 * make: `insert_one`, `find_one` by identifier, `update_one` with `$set`,
 * `delete_one` and an unfiltered `find()` cursor. The collection is a map
 * from identifier to document; identifiers are handed out by a counter.
 */
module Store {
  import opened Values
  import opened Ids

  predicate Distinct(ids: seq<Id>) {
    forall i, j :: 0 <= i < j < |ids| ==> ids[i] != ids[j]
  }

  /** `ids` lists every key of `keys` exactly once: the order of a cursor. */
  predicate Enumerates(ids: seq<Id>, keys: set<Id>) {
    Distinct(ids) && (forall i :: 0 <= i < |ids| ==> ids[i] in keys)
      && (forall id :: id in keys ==> id in ids)
  }

  /** The table after inserting `docs` one by one under the identifiers
      `next`, `next + 1`, ... */
  function Appended(t: map<Id, Doc>, next: Id, docs: seq<Doc>): (r: map<Id, Doc>)
    ensures forall id :: id in r <==> id in t || next <= id < next + |docs|
    ensures forall id :: next <= id < next + |docs| ==> r[id] == docs[id - next]
    ensures forall id :: id in t && !(next <= id < next + |docs|) ==> r[id] == t[id]
  {
    if docs == [] then t
    else Appended(t, next, docs[..|docs| - 1])[next + |docs| - 1 := docs[|docs| - 1]]
  }

  class Collection {
    var docs: map<Id, Doc>
    var nextId: Id

    /** Every stored identifier was handed out already, and a stored document
        keeps its identifier only as its key. */
    ghost predicate Valid()
      reads this
    {
      forall id :: id in docs ==> id < nextId && IdKey !in docs[id]
    }

    constructor ()
      ensures Valid() && docs == map[]
    {
      docs := map[];
      nextId := 0;
    }

    /** `insert_one(d)`: stores `d` under a fresh identifier. */
    method InsertOne(d: Doc) returns (id: Id)
      requires Valid() && IdKey !in d
      modifies this
      ensures Valid()
      ensures id == old(nextId) && id !in old(docs) && nextId == id + 1
      ensures docs == old(docs)[id := d]
    {
      id := nextId;
      docs := docs[id := d];
      nextId := nextId + 1;
    }

    /** `find_one({"_id": id})`. */
    method FindOne(id: Id) returns (r: Option<Doc>)
      ensures r.Some? <==> id in docs
      ensures r.Some? ==> r.value == docs[id]
    {
      if id in docs {
        r := Some(docs[id]);
      } else {
        r := None;
      }
    }

    /** `update_one({"_id": id}, {"$set": patch})`: the fields of the patch
        replace or join those of the matched document; nothing else changes. */
    method UpdateOne(id: Id, patch: Doc) returns (matched: bool)
      requires Valid() && IdKey !in patch
      modifies this
      ensures Valid() && nextId == old(nextId)
      ensures matched <==> id in old(docs)
      ensures docs == if matched then old(docs)[id := old(docs)[id] + patch] else old(docs)
    {
      matched := id in docs;
      if matched {
        docs := docs[id := docs[id] + patch];
      }
    }

    /** `delete_one({"_id": id})`. */
    method DeleteOne(id: Id) returns (deleted: bool)
      requires Valid()
      modifies this
      ensures Valid() && nextId == old(nextId)
      ensures deleted <==> id in old(docs)
      ensures docs == old(docs) - {id}
    {
      deleted := id in docs;
      docs := docs - {id};
    }

    /** `find()`: every stored identifier once, in an order the database
        chooses. */
    method Find() returns (ids: seq<Id>)
      ensures Enumerates(ids, docs.Keys)
    {
      ids := [];
      var rest := docs.Keys;
      while rest != {}
        invariant Distinct(ids)
        invariant forall i :: 0 <= i < |ids| ==> ids[i] in docs && ids[i] !in rest
        invariant forall id :: id in docs ==> id in rest || id in ids
        invariant rest <= docs.Keys
        decreases rest
      {
        var id :| id in rest;
        ids := ids + [id];
        rest := rest - {id};
      }
    }
  }
}

=== FILE: tags.dfy ===
/**
 * Tags as the menu front end reads them (a comma-separated answer) and as
 * both front ends print them (`", ".join(tags)`).
 */
module Tags {
  import opened Text
  import opened Values

  /** Each piece stripped. */
  function StripAll(pieces: seq<string>): (r: seq<string>)
    ensures |r| == |pieces|
    ensures forall k :: 0 <= k < |r| ==> r[k] == Strip(pieces[k])
  {
    seq(|pieces|, k requires 0 <= k < |pieces| => Strip(pieces[k]))
  }

  /** `[t.strip() for t in raw.split(",")] if raw else []` with
      `raw = answer.strip()`. */
  function ParseTags(answer: string): (tags: seq<string>)
    ensures tags == [] <==> AllSpace(answer)
    ensures tags != [] ==> |tags| == Count(Strip(answer), ',') + 1
    ensures forall k :: 0 <= k < |tags| ==> IsStripped(tags[k]) && NoComma(tags[k])
  {
    var raw := Strip(answer);
    if raw == "" then []
    else
      var pieces := Split(raw);
      assert forall k :: 0 <= k < |pieces| ==> NoComma(Strip(pieces[k])) by {
        forall k | 0 <= k < |pieces| ensures NoComma(Strip(pieces[k])) {
          var p := pieces[k];
          var a, b := StripParts(p);
          var t := Strip(p);
          assert forall i :: 0 <= i < |t| ==> t[i] == p[|a| + i];
        }
      }
      StripAll(pieces)
  }

  /** `", ".join(tags)`. */
  function JoinTags(tags: seq<string>): string {
    Join(tags, ", ")
  }

  /** Comma-free text after `r` ends up in its last piece. */
  lemma SplitPaddedRight(r: string, b: string)
    requires NoComma(b)
    ensures var q, p := Split(r), Split(r + b);
      |p| == |q| &&
      forall k :: 0 <= k < |q| ==> p[k] == q[k] + (if k == |q| - 1 then b else [])
  {
    var q := Split(r);
    var n := |q|;
    SplitSuffix(r, b);
    var p := Split(r + b);
    assert p == q[..n - 1] + [q[n - 1] + b];
    forall k | 0 <= k < n ensures p[k] == q[k] + (if k == n - 1 then b else []) {
      if k < n - 1 {
        assert p[k] == q[..n - 1][k] == q[k];
        assert q[k] + [] == q[k];
      }
    }
  }

  /** Comma-free text before `s` ends up in its first piece. */
  lemma SplitPaddedLeft(a: string, s: string)
    requires NoComma(a)
    ensures var q, p := Split(s), Split(a + s);
      |p| == |q| && p[0] == a + q[0] && forall k :: 0 < k < |q| ==> p[k] == q[k]
  {
    SplitPrefix(a, s);
  }

  /** Comma-free text on both sides of `r` ends up in its first and last
      piece. */
  lemma SplitPadded(a: string, r: string, b: string)
    requires NoComma(a) && NoComma(b)
    ensures var q, p := Split(r), Split(a + r + b);
      |p| == |q| &&
      forall k :: 0 <= k < |q| ==>
        p[k] == (if k == 0 then a else []) + q[k] + (if k == |q| - 1 then b else [])
  {
    var q := Split(r);
    var n := |q|;
    SplitPaddedRight(r, b);
    var rb := Split(r + b);
    SplitPaddedLeft(a, r + b);
    assert a + r + b == a + (r + b);
    var p := Split(a + r + b);
    forall k | 0 <= k < n
      ensures p[k] == (if k == 0 then a else []) + q[k] + (if k == n - 1 then b else [])
    {
      var tail := if k == n - 1 then b else [];
      assert rb[k] == q[k] + tail;
      if k == 0 {
        assert p[0] == a + (q[0] + tail);
      } else {
        assert p[k] == q[k] + tail;
        assert q[k] + tail == [] + q[k] + tail;
      }
    }
  }

  /** The outer `strip()` of the answer only trims the first and the last
      piece, which are stripped again anyway: the tags are the stripped
      comma-separated pieces of the answer as typed. */
  lemma {:induction false} ParseTagsPieces(answer: string)
    requires !AllSpace(answer)
    ensures var tags, pieces := ParseTags(answer), Split(answer);
      |tags| == |pieces| && forall k :: 0 <= k < |tags| ==> tags[k] == Strip(pieces[k])
  {
    var r := Strip(answer);
    var a, b := StripParts(answer);
    assert NoComma(a) && NoComma(b);
    SplitPadded(a, r, b);
    var q, pieces := Split(r), Split(answer);
    forall k | 0 <= k < |q| ensures Strip(q[k]) == Strip(pieces[k]) {
      StripPadded(if k == 0 then a else [], q[k], if k == |q| - 1 then b else []);
    }
  }

  /** The pieces of tags joined with ", ": the first tag, then each further
      tag behind the space of the separator. */
  function Spaced(tags: seq<string>): (pieces: seq<string>)
    requires tags != []
    ensures |pieces| == |tags|
  {
    seq(|tags|, k requires 0 <= k < |tags| => if k == 0 then tags[0] else " " + tags[k])
  }

  lemma {:induction false} SplitJoinTags(tags: seq<string>)
    requires tags != []
    requires forall k :: 0 <= k < |tags| ==> NoComma(tags[k])
    ensures Split(JoinTags(tags)) == Spaced(tags)
  {
    if |tags| == 1 {
      SplitNoComma(tags[0]);
    } else {
      var rest := tags[1..];
      var j := JoinTags(rest);
      SplitJoinTags(rest);
      assert JoinTags(tags) == tags[0] + "," + (" " + j);
      SplitComma(tags[0], " " + j);
      assert NoComma(" ");
      SplitPrefix(" ", j);
      var sr := Spaced(rest);
      var p := Split(JoinTags(tags));
      assert p == [tags[0]] + ([" " + sr[0]] + sr[1..]);
      assert |p| == |tags|;
      forall k | 0 <= k < |tags| ensures p[k] == Spaced(tags)[k] {
        if k == 1 {
          assert p[1] == " " + sr[0] && sr[0] == rest[0];
        } else if k > 1 {
          assert p[k] == sr[k - 1] == " " + rest[k - 1];
        }
      }
    }
  }

  /** Tags printed by `", ".join(...)` and read back by the menu's tag parser
      come back unchanged, provided each tag is stripped and holds no comma.
      The one exception is the list holding a single empty tag, which prints
      as the empty answer and reads back as no tags. */
  lemma {:induction false} ParseJoinedTags(tags: seq<string>)
    requires forall k :: 0 <= k < |tags| ==> IsStripped(tags[k]) && NoComma(tags[k])
    requires tags != [""]
    ensures ParseTags(JoinTags(tags)) == tags
  {
    if tags != [] {
      var j := JoinTags(tags);
      SplitJoinTags(tags);
      assert !AllSpace(j) by {
        if |tags| == 1 {
          assert j == tags[0] && tags[0] != [] && !IsSpace(j[0]);
        } else {
          assert j == tags[0] + ", " + JoinTags(tags[1..]);
          assert j[|tags[0]|] == ',';
        }
      }
      ParseTagsPieces(j);
      var sp := Spaced(tags);
      forall k | 0 <= k < |tags| ensures Strip(sp[k]) == tags[k] {
        if k == 0 {
          assert sp[0] == [] + tags[0] + [];
          StripUnique([], tags[0], []);
        } else {
          assert sp[k] == " " + tags[k] + [];
          StripUnique(" ", tags[k], []);
        }
      }
    }
  }

  /** Strips and splits of the concrete answers below. */
  lemma StripExamples()
    ensures Strip("a") == "a" && Strip("") == "" && Strip("c") == "c"
    ensures Strip(" b ") == "b" && Strip("b") == "b"
  {
    assert "a" == [] + "a" + [];
    StripUnique([], "a", []);
    assert "b" == [] + "b" + [];
    StripUnique([], "b", []);
    assert "c" == [] + "c" + [];
    StripUnique([], "c", []);
    assert " b " == " " + "b" + " ";
    StripUnique(" ", "b", " ");
  }

  /** A blank answer gives no tags. */
  lemma ParseTagsBlank()
    ensures ParseTags("") == [] && ParseTags(" \t ") == []
  {
    assert AllSpace(" \t ");
  }

  /** Parsing comma-joined pieces, not all blank, gives each piece
      stripped. */
  lemma ParseJoinedPieces(pieces: seq<string>)
    requires pieces != []
    requires forall k :: 0 <= k < |pieces| ==> NoComma(pieces[k])
    requires !AllSpace(Join(pieces, ","))
    ensures ParseTags(Join(pieces, ",")) == StripAll(pieces)
  {
    SplitJoin(pieces);
    ParseTagsPieces(Join(pieces, ","));
  }

  /** Each piece is stripped: "a, b ,c" gives three tags. */
  lemma ParseTagsSpaced()
    ensures ParseTags("a, b ,c") == ["a", "b", "c"]
  {
    StripExamples();
    var p := ["a", " b ", "c"];
    assert Join(p[1..], ",") == " b ,c";
    assert Join(p, ",") == "a, b ,c";
    SplitJoin(p);
    assert !IsSpace("a, b ,c"[0]);
    ParseTagsPieces("a, b ,c");
  }

  /** Three pieces joined with ",", the middle one empty. */
  lemma JoinEmptyMiddle(x: string, y: string)
    ensures Join([x, "", y], ",") == x + ",," + y
  {
    var e := [x, "", y];
    assert e[1..] == ["", y] && ["", y][1..] == [y];
    assert Join(e[1..], ",") == "," + y;
    assert x + "," + ("," + y) == x + ",," + y;
  }

  /** Two pieces around a doubled comma parse as the three pieces, stripped. */
  lemma ParseDoubledComma(x: string, y: string)
    requires NoComma(x) && NoComma(y)
    ensures ParseTags(x + ",," + y) == StripAll([x, "", y])
  {
    var e := [x, "", y];
    JoinEmptyMiddle(x, y);
    assert (x + ",," + y)[|x|] == ',';
    ParseJoinedPieces(e);
  }

  /** Empty pieces are kept: two tags around a doubled comma come back with
      an empty tag between them. */
  lemma ParseTagsEmptyPiece(x: string, y: string)
    requires IsStripped(x) && NoComma(x)
    requires IsStripped(y) && NoComma(y)
    ensures ParseTags(x + ",," + y) == [x, "", y]
  {
    ParseDoubledComma(x, y);
    StrippedFixed(x);
    StrippedFixed(y);
    var se := StripAll([x, "", y]);
    assert se[0] == x && se[1] == "" && se[2] == y;
  }

  /** Each character as a one-character string: iterating over a string. */
  function Chars(s: string): (cs: seq<string>)
    ensures |cs| == |s|
    ensures forall i :: 0 <= i < |s| ==> cs[i] == [s[i]]
  {
    seq(|s|, i requires 0 <= i < |s| => [s[i]])
  }

  function Strs(items: seq<Value>): (ss: seq<string>)
    requires forall i :: 0 <= i < |items| ==> items[i].Str?
    ensures |ss| == |items|
    ensures forall i :: 0 <= i < |items| ==> items[i] == Str(ss[i])
  {
    seq(|items|, i requires 0 <= i < |items| => items[i].s)
  }

  /** `", ".join(tags)`: a list of strings is joined; a string is iterated
      character by character; anything else raises. */
  function TagsCell(v: Value): (r: Option<string>)
    ensures r.Some? <==> v.Str? || (v.List? && forall i :: 0 <= i < |v.items| ==> v.items[i].Str?)
    ensures v.Str? ==> r == Some(JoinTags(Chars(v.s)))
    ensures r.Some? && v.List? ==> r == Some(JoinTags(Strs(v.items)))
  {
    match v
    case Str(s) => Some(JoinTags(Chars(s)))
    case List(items) =>
      if forall i :: 0 <= i < |items| ==> items[i].Str? then Some(JoinTags(Strs(items))) else None
    case _ => None
  }
}

=== FILE: text.dfy ===
/**
 * Python string primitives used by both front ends: `str.strip()`,
 * `str.split(",")`, `sep.join(parts)` and `str.lower()`, restricted to
 * ASCII characters.
 */
module Text {

  /** Python's `str.isspace` on the ASCII range: tab, line feed, vertical tab,
      form feed, carriage return, the four separators 0x1C-0x1F and space. */
  predicate IsSpace(c: char) {
    9 <= c as int <= 13 || 28 <= c as int <= 32
  }

  /** Python's `str.isdigit` on the ASCII range. */
  predicate IsDigit(c: char) {
    '0' <= c <= '9'
  }

  predicate AllSpace(s: string) {
    forall i :: 0 <= i < |s| ==> IsSpace(s[i])
  }

  /** A string with nothing for `strip()` to remove: empty, or starting and
      ending with a non-space character. */
  predicate IsStripped(s: string) {
    s == [] || (!IsSpace(s[0]) && !IsSpace(s[|s| - 1]))
  }

  lemma AllSpaceConcat(a: string, b: string)
    requires AllSpace(a) && AllSpace(b)
    ensures AllSpace(a + b)
  {
    forall i | 0 <= i < |a + b| ensures IsSpace((a + b)[i]) {
      if i < |a| { assert (a + b)[i] == a[i]; } else { assert (a + b)[i] == b[i - |a|]; }
    }
  }

  /** `s.strip()`: whitespace is removed from the front, then from the back,
      one character at a time. The result has nothing more to strip, and it
      is empty exactly when `s` is blank. */
  function Strip(s: string): (r: string)
    ensures IsStripped(r)
    ensures r == [] <==> AllSpace(s)
    decreases |s|
  {
    if s == [] then []
    else if IsSpace(s[0]) then
      assert AllSpace(s) <==> AllSpace(s[1..]) by {
        assert forall i :: 0 < i < |s| ==> s[i] == s[1..][i - 1];
      }
      Strip(s[1..])
    else if IsSpace(s[|s| - 1]) then
      assert !AllSpace(s);
      Strip(s[..|s| - 1])
    else s
  }

  lemma Regroup(a: string, a': string, r: string, b': string, b: string)
    ensures a + (a' + r + b') + b == (a + a') + r + (b' + b)
  {
  }

  /** `s` is its strip with whitespace on both sides. */
  lemma {:induction false} StripParts(s: string) returns (a: string, b: string)
    ensures s == a + Strip(s) + b && AllSpace(a) && AllSpace(b)
    decreases |s|
  {
    if s == [] {
      a, b := [], [];
    } else if IsSpace(s[0]) {
      var t := s[1..];
      assert s == [s[0]] + t;
      var a0, b0 := StripParts(t);
      a, b := SpaceBefore(s[0], a0, Strip(t), b0, t);
    } else if IsSpace(s[|s| - 1]) {
      var t := s[..|s| - 1];
      assert s == t + [s[|s| - 1]];
      var a0, b0 := StripParts(t);
      a, b := SpaceAfter(a0, Strip(t), b0, s[|s| - 1], t);
    } else {
      a, b := [], [];
      assert s == [] + s + [];
    }
  }

  lemma SpaceBefore(c: char, a0: string, r: string, b0: string, t: string) returns (a: string, b: string)
    requires IsSpace(c) && AllSpace(a0) && AllSpace(b0) && t == a0 + r + b0
    ensures [c] + t == a + r + b && AllSpace(a) && AllSpace(b)
  {
    a, b := [c] + a0, b0;
    AllSpaceConcat([c], a0);
    Regroup([c], a0, r, b0, []);
  }

  lemma SpaceAfter(a0: string, r: string, b0: string, c: char, t: string) returns (a: string, b: string)
    requires IsSpace(c) && AllSpace(a0) && AllSpace(b0) && t == a0 + r + b0
    ensures t + [c] == a + r + b && AllSpace(a) && AllSpace(b)
  {
    a, b := a0, b0 + [c];
    AllSpaceConcat(b0, [c]);
    Regroup([], a0, r, b0, [c]);
  }

  /** Whitespace on either side of an already stripped string is exactly what
      `strip()` removes: the decomposition of StripParts is unique. */
  lemma {:induction false} StripUnique(a: string, r: string, b: string)
    requires AllSpace(a) && AllSpace(b) && IsStripped(r)
    ensures Strip(a + r + b) == r
    decreases |a| + |b|
  {
    var s := a + r + b;
    if a != [] {
      assert s[0] == a[0];
      assert s[1..] == a[1..] + r + b;
      StripUnique(a[1..], r, b);
    } else if b != [] {
      if r == [] {
        assert s == b && s[1..] == [] + [] + b[1..];
        StripUnique([], [], b[1..]);
      } else {
        assert s[0] == r[0] && s[|s| - 1] == b[|b| - 1];
        assert s[..|s| - 1] == [] + r + b[..|b| - 1];
        StripUnique([], r, b[..|b| - 1]);
      }
    } else {
      assert s == r;
    }
  }

  /** A stripped string is its own strip. */
  lemma StrippedFixed(r: string)
    requires IsStripped(r)
    ensures Strip(r) == r
  {
    assert r == [] + r + [];
    StripUnique([], r, []);
  }

  /** `strip()` is idempotent. */
  lemma {:induction false} StripIdempotent(s: string)
    ensures Strip(Strip(s)) == Strip(s)
  {
    var r := Strip(s);
    assert r == [] + r + [];
    StripUnique([], r, []);
  }

  /** Whitespace added on either side of a string does not change its strip. */
  lemma {:induction false} StripPadded(a: string, s: string, b: string)
    requires AllSpace(a) && AllSpace(b)
    ensures Strip(a + s + b) == Strip(s)
  {
    var r := Strip(s);
    var a', b' := StripParts(s);
    var a2, b2 := a + a', b' + b;
    AllSpaceConcat(a, a');
    AllSpaceConcat(b', b);
    Regroup(a, a', r, b', b);
    StripUnique(a2, r, b2);
  }

  /** Number of occurrences of `c` in `s`. */
  function Count(s: string, c: char): nat {
    if s == [] then 0 else (if s[0] == c then 1 else 0) + Count(s[1..], c)
  }

  predicate NoComma(s: string) {
    forall i :: 0 <= i < |s| ==> s[i] != ','
  }

  /** `s.split(",")`: the pieces between commas, in order, empty pieces kept.
      There is one more piece than there are commas, and no piece holds a
      comma. */
  function Split(s: string): (pieces: seq<string>)
    ensures |pieces| == Count(s, ',') + 1
    ensures forall k :: 0 <= k < |pieces| ==> NoComma(pieces[k])
  {
    if s == [] then [""]
    else
      var rest := Split(s[1..]);
      if s[0] == ',' then [""] + rest
      else [[s[0]] + rest[0]] + rest[1..]
  }

  /** `sep.join(parts)`. */
  function Join(parts: seq<string>, sep: string): string {
    if parts == [] then ""
    else if |parts| == 1 then parts[0]
    else parts[0] + sep + Join(parts[1..], sep)
  }

  /** Splitting a comma-free prefix followed by more text puts the prefix at
      the front of the first piece. */
  lemma {:induction false} SplitPrefix(w: string, s: string)
    requires NoComma(w)
    ensures Split(w + s) == [w + Split(s)[0]] + Split(s)[1..]
  {
    if w != [] {
      var ws := w + s;
      assert ws[0] == w[0] && ws[0] != ',';
      assert ws[1..] == w[1..] + s;
      SplitPrefix(w[1..], s);
      var rest := Split(ws[1..]);
      assert rest == [w[1..] + Split(s)[0]] + Split(s)[1..];
      assert Split(ws) == [[ws[0]] + rest[0]] + rest[1..];
      assert [w[0]] + (w[1..] + Split(s)[0]) == w + Split(s)[0];
    } else {
      assert w + s == s;
      assert w + Split(s)[0] == Split(s)[0];
      assert Split(s) == [Split(s)[0]] + Split(s)[1..];
    }
  }

  /** Splitting text followed by a comma-free suffix puts the suffix at the
      end of the last piece. */
  lemma {:induction false} SplitSuffix(s: string, w: string)
    requires NoComma(w)
    ensures var p := Split(s);
      Split(s + w) == p[..|p| - 1] + [p[|p| - 1] + w]
  {
    if s == [] {
      assert [] + w == w;
      SplitNoComma(w);
    } else {
      var sw := s + w;
      assert sw[0] == s[0];
      assert sw[1..] == s[1..] + w;
      SplitSuffix(s[1..], w);
      var p, q := Split(s[1..]), Split(sw[1..]);
      assert q == p[..|p| - 1] + [p[|p| - 1] + w];
      if s[0] == ',' {
        assert Split(s) == [""] + p;
        assert Split(sw) == [""] + q;
      } else {
        assert Split(s) == [[s[0]] + p[0]] + p[1..];
        assert Split(sw) == [[s[0]] + q[0]] + q[1..];
        if |p| == 1 {
          assert q == [p[0] + w];
          assert [s[0]] + (p[0] + w) == ([s[0]] + p[0]) + w;
        } else {
          assert q[0] == p[0];
          assert q[1..] == p[1..|p| - 1] + [p[|p| - 1] + w];
          var P := Split(s);
          assert P[..|P| - 1] == [[s[0]] + p[0]] + p[1..|p| - 1];
          assert P[|P| - 1] == p[|p| - 1];
        }
      }
    }
  }

  /** A comma-free string is a single piece. */
  lemma {:induction false} SplitNoComma(w: string)
    requires NoComma(w)
    ensures Split(w) == [w]
  {
    SplitPrefix(w, []);
    assert w + [] == w;
  }

  /** Splitting a piece, a comma and more text gives the piece followed by
      the pieces of the rest. */
  lemma {:induction false} SplitComma(w: string, s: string)
    requires NoComma(w)
    ensures Split(w + "," + s) == [w] + Split(s)
  {
    var cs := "," + s;
    SplitPrefix(w, cs);
    assert cs[0] == ',' && cs[1..] == s;
    assert Split(cs) == [""] + Split(s);
    assert w + "," + s == w + cs;
    assert w + "" == w;
  }

  /** Joining with "," undoes splitting on ",". */
  lemma {:induction false} JoinSplit(s: string)
    ensures Join(Split(s), ",") == s
  {
    if s != [] {
      JoinSplit(s[1..]);
      var rest := Split(s[1..]);
      if s[0] == ',' {
        assert s == "," + s[1..];
        if |rest| == 1 {
          assert Join([""] + rest, ",") == "" + "," + Join(rest, ",");
        } else {
          assert ([""] + rest)[1..] == rest;
        }
      } else {
        assert s == [s[0]] + s[1..];
        var p := [[s[0]] + rest[0]] + rest[1..];
        if |rest| == 1 {
          assert Join(rest, ",") == rest[0];
        } else {
          assert p[1..] == rest[1..];
          assert Join(rest, ",") == rest[0] + "," + Join(rest[1..], ",");
        }
      }
    }
  }

  /** Splitting on "," undoes joining comma-free pieces with ",". */
  lemma {:induction false} SplitJoin(parts: seq<string>)
    requires parts != []
    requires forall k :: 0 <= k < |parts| ==> NoComma(parts[k])
    ensures Split(Join(parts, ",")) == parts
  {
    if |parts| == 1 {
      SplitNoComma(parts[0]);
    } else {
      SplitJoin(parts[1..]);
      SplitComma(parts[0], Join(parts[1..], ","));
    }
  }

  function LowerChar(c: char): char {
    if 'A' <= c <= 'Z' then (c as int + 32) as char else c
  }

  /** `s.lower()` on ASCII letters. */
  function Lower(s: string): (r: string)
    ensures |r| == |s|
    ensures forall i :: 0 <= i < |s| ==> r[i] == LowerChar(s[i])
  {
    if s == [] then [] else [LowerChar(s[0])] + Lower(s[1..])
  }
}

=== FILE: values.dfy ===
/**
 * The documents both front ends exchange with the database: JSON-like values
 * and documents keyed by field name, with Python's truthiness and `dict.get`.
 */
module Values {

  datatype Option<+T> = None | Some(value: T)

  /** A JSON value as a document field holds it. Numbers are integers. */
  datatype Value =
    | Null
    | Bool(b: bool)
    | Num(n: int)
    | Str(s: string)
    | List(items: seq<Value>)

  /** A document: field name to value. */
  type Doc = map<string, Value>

  /** The key under which the database keeps a document's identifier. */
  const IdKey: string := "_id"

  /** The five contact fields. */
  const Fields: set<string> := {"name", "phone", "email", "address", "tags"}

  /** Python truthiness: `None`, `False`, `0`, `""` and `[]` are false. */
  predicate Truthy(v: Value) {
    match v
    case Null => false
    case Bool(b) => b
    case Num(n) => n != 0
    case Str(s) => s != ""
    case List(items) => items != []
  }

  /** `d.get(k, default)`. */
  function Get(d: Doc, k: string, default: Value): Value {
    if k in d then d[k] else default
  }

  /** A list of strings as a `List` value. */
  function StrList(ss: seq<string>): (v: Value)
    ensures v.List? && |v.items| == |ss|
    ensures forall i :: 0 <= i < |ss| ==> v.items[i] == Str(ss[i])
  {
    List(seq(|ss|, i requires 0 <= i < |ss| => Str(ss[i])))
  }
}
